=== FILE: README.md ===
# ykstackmaps in Dafny

A model of the core of ykstackmaps, a Rust library that reads the
`.llvm_stackmaps` section of an ELF binary. It decodes version 3 of LLVM's
Stack Map Format:

- a 16-byte header, which holds the version byte 3, three reserved zero bytes and the sizes of the function, constant and record tables;
- the function table, made of 24-byte entries: address, stack size, record count;
- the constant table, made of 8-byte entries;
- the record table. Each record holds an id, an instruction offset, 2 reserved flag bytes, a location count, 12-byte location entries, padding to 8 bytes, 2 padding bytes, a live-out count, 4-byte live-out entries, and padding to 8 bytes again.

The modules follow the library's structure:

- `Bytes`: bounded integers, little-endian byte sequences, 32-bit two's complement, and the `At` predicate ("these bytes lie at that position").
- `Errors`: the library's error type, panics, the result type that `?` and `itry!` propagate through, and the outcome of one `Iterator::next` call (`Step`).
- `Format`: the sizes and offsets the decoder uses.
- `Cursors`: the in-memory cursor over the section bytes, and `src/util.rs`. That file covers `cursor_from_elf`, `cursor_skip` and `cursor_align8`. The module also models the fixed-width reads of 1, 2, 4 and 8 bytes that the decoder makes through the `byteorder` crate.
- `Locations`: `LocKind::from_hex`, decoding one location entry, and the location iterator.
- `Records`: the stackmap record iterator. It reads a record's head, collects its locations, then skips the location and live-out tables with the source's alignment steps.
- `Functions`: the function iterator.
- `Parser`: `StackMapParser::new` and `check_header`, plus the start offsets of the two public iterators.
- `Encoding`: an independent writer of well-formed sections, the partner of the decoder, and the proofs that decoding what it writes gives back what it was given.
- `RoundTrip`: these proofs put together for a whole section.
- `Examples`: concrete entries and a concrete section worked through the decoder.

An iterator is a value: the section (`Option<Section>`), an optional cursor that is created on the first call, the start position and the number of entries left. `next` is a function from an iterator to a `Step`:

- `Exhausted` is `None`;
- `Yielded(item, next iterator)` is `Some(Ok(item))`;
- `Failed(error)` is `Some(Err(error))`;
- `Aborted(panic)` is a Rust panic.

`RunFuncs` and `RunRecs` call `next` until the iterator is exhausted or an error stops it. They model a `for` loop over the iterator that breaks on the first error, as the library's documentation asks callers to do.

Integer widths are explicit:

- the counts are `u32` or `u16`;
- cursor positions are `u64`;
- a seek that would make the position negative or overflow `u64` is the I/O error `InvalidInput`;
- a seek past the end of the data succeeds, and the next read then fails with `UnexpectedEof`.

## Model

| member | source | states |
|---|---|---|
| Locations.FromHex | src/lib.rs:117-125 | a byte is accepted exactly when it is one of the codes 1 to 5; the kind it maps to has that code; every other byte is the "Unknown location kind" error |
| Locations.FromHexKindCode | src/lib.rs:118-123 | each of the five kinds is decoded back from its own code, so the mapping is one-to-one |
| Locations.ReadLocation | src/lib.rs:252-278 | a decoded location has a U32 offset exactly when its kind is Constant; its 12 bytes are the encoding of what was decoded, with both reserved fields zero; the cursor moves 12 bytes on; the only errors are end of data and an unknown kind; the only panic is a failed zero assertion on a non-zero value |
| Locations.ReadLocationEncoded | src/lib.rs:252-278 | reading the encoding of any location whose offset matches its kind gives back that location and moves 12 bytes on |
| Locations.UnknownKindIsError | src/lib.rs:254-255 | a kind byte outside 1 to 5 makes the location read fail with the unknown-kind error, whatever follows it |
| Locations.ReservedByteAborts | src/lib.rs:256-258 | a valid kind followed by a non-zero reserved byte is a panic that carries the byte found |
| Locations.ReservedHalfAborts | src/lib.rs:263-265 | a non-zero reserved 16-bit field at bytes 6 and 7 is a panic that carries its little-endian value |
| Locations.ReadLocationFailures | src/lib.rs:252-278 | every failure is caused by the bytes at the cursor: a panic carries a present, non-zero reserved field (byte 1, or the 16-bit field at bytes 6-7 once byte 1 is zero); the unknown-kind error needs a kind byte outside 1..5; end of data needs the 12-byte entry to be cut short |
| Bytes.ToI32 | src/lib.rs:272-275 | the signed reading of 32 bits agrees with the unsigned reading modulo 2^32, and it is negative exactly when the top bit is set |
| Bytes.TwosComplementRoundTrip | src/lib.rs:267-276 | the signed and unsigned readings of the same 32 bits convert into each other without loss, in both directions |
| Examples.ConstantAllOnes | src/lib.rs:267-271 | the offset bytes FF FF FF FF of a Constant location decode as U32(4294967295) |
| Examples.DirectAllOnes | src/lib.rs:272-275 | the same offset bytes of a Direct location decode as I32(-1) |
| Locations.LocNext | src/lib.rs:242-279 | the iterator is exhausted exactly when no locations are left, without touching the section; a yielded location is read at the cursor, which is created at the start position the first time; the count drops by one and the cursor moves 12 bytes on |
| Locations.CollectLocs | src/lib.rs:204-207 | collecting a record's locations never returns an error: a location that fails to decode is the `expect` panic carrying that error, and an assertion panic inside a location is passed on unchanged; it gives exactly the announced number of locations, each with an offset that matches its kind, and the table they were read from lies at the start position |
| Locations.CollectLocsEncoded | src/lib.rs:197-207 | a table of encoded locations at the iterator's start is collected back, in order and complete |
| Cursors.FromSection | src/util.rs:44-56 | a cursor is created exactly when the section exists; it is positioned at the requested start over the section's bytes; a missing section is the "Can't find stackmap section" error |
| Cursors.Open | src/lib.rs:177-180 | an iterator uses its existing cursor and creates one from the section only when it has none |
| Cursors.Skip | src/util.rs:58-61 | a skip moves the position by exactly the signed amount whenever the result is a valid u64 position, past the end of the data included; otherwise it is the InvalidInput error |
| Cursors.Pad8 | src/util.rs:65 | the padding is below 8 and takes the position to a multiple of 8 |
| Cursors.Pad8Formula | src/util.rs:65 | the padding is the unsigned expression (8 - p % 8) % 8, whose subtraction cannot wrap |
| Cursors.Align8 | src/util.rs:63-67 | aligning succeeds exactly when the rounded-up position fits in u64; the new position is a multiple of 8 in [p, p+8) over the same data |
| Cursors.RoundUp8Least | src/util.rs:63-67 | the aligned position is the least multiple of 8 not below the old one |
| Cursors.Align8Idempotent | src/util.rs:63-67 | an aligned cursor does not move, so aligning twice is aligning once |
| Cursors.ReadUInt | src/lib.rs:184-186 | a read of n bytes succeeds exactly when n bytes remain; its value is the little-endian number whose encoding is those bytes; the cursor moves n on; otherwise it is UnexpectedEof |
| Cursors.ReadEncoded | src/lib.rs:184-186 | reading n bytes that encode v gives back v |
| Errors.StepOf | src/util.rs:69-79 | inside `next`, a successful step yields its value and a failed one returns `Some(Err(e))` with the same error; a step never looks like `None` |
| Parser.CheckHeader | src/lib.rs:359-378 | the header check succeeds exactly when the bytes are 3, 0, 0, 0, and then it consumes 4 bytes; a first byte other than 3 is a version mismatch that carries the version found, whatever follows; a non-zero byte 1 and a non-zero bytes 2-3 are each their own error; missing bytes are UnexpectedEof |
| Parser.HeaderReads | src/lib.rs:361-373 | the three header reads see bytes 0, 1 and 2-3, and the header is valid exactly when they read 3, 0 and 0 |
| Parser.New | src/lib.rs:327-346 | a parser is built exactly when the section exists, has a valid header and is at least 16 bytes long; its three table sizes are the 32-bit values at bytes 4, 8 and 12; every other outcome is the error of the first step that fails |
| Parser.IterFunctions | src/lib.rs:443-450 | the function iterator starts at byte 16 with no cursor and as many entries as the header announced |
| Parser.IterStackmaps | src/lib.rs:406-416 | the record iterator starts at an 8-byte boundary between 16 and 2^37, so its start offset cannot overflow u64; it has no cursor and as many records as the header announced |
| RoundTrip.RecordsStartAt | src/lib.rs:407-409 | the record iterator starts at 16 + 24 * functions + 8 * constants, which is a multiple of 8 |
| Functions.ReadFunction | src/lib.rs:304-311 | reading a function entry succeeds exactly when its address and stack size are present; these are the two 64-bit values at the cursor; the cursor moves the whole 24-byte entry on, and the record count is skipped unread |
| Functions.FuncNext | src/lib.rs:294-315 | the function iterator is exhausted exactly when the count is zero; otherwise it yields exactly when the section exists and 16 bytes remain at its cursor; the count drops by one and the cursor moves 24 bytes on; a missing section or short data is an error, never a panic |
| Functions.RunFuncs | src/lib.rs:294-315 | a loop over the function iterator ends normally exactly when it has yielded the announced number of functions, and the iterator is then exhausted; it never yields more, and it never panics |
| Records.ReadRecordHead | src/lib.rs:182-195 | a record head is read exactly when its 16 bytes are present: id, instruction offset, the skipped flags and the location count, at bytes 0, 8 and 14 |
| Records.SkipLiveOuts | src/lib.rs:212-224 | after the location table, the cursor is aligned to 8; the padding is skipped; the live-out count is read; the live-outs are skipped and the cursor is aligned again; this succeeds exactly when the live-out count is present, and the end is an 8-byte boundary |
| Records.SkipTables | src/lib.rs:209-224 | the outer cursor skips exactly 12 bytes per location, then the live-out part; its only error on valid positions is UnexpectedEof; its end is an 8-byte boundary |
| Records.RecordLocs | src/lib.rs:197-207 | the locations of a record are collected from where the head ends, one per announced location, and never as an error |
| Records.ReadRecordBody | src/lib.rs:196-228 | a decoded record carries the head's id, offset and location count; its locations lie at the head's end; the cursor ends at the end of the live-out part; the body panics exactly when collecting the locations panics, with the same panic, and is never an error for it |
| Records.ReadRecord | src/lib.rs:182-228 | a decoded record is exactly what lies at the cursor, head, locations and tables, and the cursor ends at its 8-aligned end over the same data; the only error is UnexpectedEof |
| Records.ReadRecordPanics | src/lib.rs:204-207 | a record decode panics exactly when the head is read and collecting its locations panics, and the panic is the one the locations gave: a bad location table is never reported as a recoverable error |
| Records.HeadRead | src/lib.rs:184-195 | a head with a given id, offset and count is read back as exactly those values |
| Records.SkipTablesEnd | src/lib.rs:209-224 | when the tables end at a given position, skipping them lands there |
| Records.TablesRead | src/lib.rs:196-224 | when a record's tables lie after its head, the record body decodes to those locations and ends where the tables end |
| Records.ReadRecordAt | src/lib.rs:182-228 | a record that lies at the cursor is decoded as exactly that record, ending where it ends |
| Records.RecNext | src/lib.rs:172-229 | the record iterator is exhausted exactly when the count is zero; a yielded record is the one that lies at the cursor, the count drops by one and the new cursor is 8-aligned; an error is only UnexpectedEof or a missing section |
| Records.RecNextPanics | src/lib.rs:172-229 | `next` panics exactly when decoding the record at its cursor panics, with the same panic, so a bad location table makes the iterator panic rather than return `Some(Err(..))` |
| Records.RecNextAt | src/lib.rs:172-229 | when a record lies at the iterator's cursor, `next` yields it and moves the cursor to its end |
| Records.RunRecs | src/lib.rs:172-229 | a loop over the record iterator ends normally exactly when it has yielded the announced number of records, and the iterator is then exhausted; it never yields more |
| Encoding.ReadFunctionEncoded | src/lib.rs:304-311 | reading an encoded function entry gives back its address and stack size and moves 24 bytes on |
| Encoding.FuncNextEncoded | src/lib.rs:294-315 | one step of the function iterator over an encoded entry yields it |
| Encoding.RunFuncsEncoded | src/lib.rs:294-315 | the function iterator over an encoded function table gives back every function, in order, and ends 24 bytes per function after the start |
| Encoding.RecordEncodedAt | src/lib.rs:182-228 | a record encoded at an 8-byte boundary is where the decoder finds its id, offset and locations, and it ends where its encoding ends |
| Encoding.LiveOutsEncodedEnd | src/lib.rs:212-224 | the live-out count found after an encoded location table takes the decoder to the end of the record |
| Encoding.EncodedDecodable | src/lib.rs:172-229 | an encoded record table at an 8-byte boundary is, record after record, decodable by the iterator |
| Encoding.RunRecsDecodable | src/lib.rs:172-229 | the record iterator over a decodable table gives back every record, in order, and ends at the table's end |
| Encoding.RunRecsEncoded | src/lib.rs:172-229 | the record iterator over an encoded record table gives back every record, in order, ends normally, and stops exactly at the end of the table |
| RoundTrip.NewEncoded | src/lib.rs:327-346 | the parser accepts every encoded section and reads back the table sizes it was written with |
| RoundTrip.FunctionsEncoded | src/lib.rs:443-450 | the function iterator of an encoded section gives back all of its functions and ends normally |
| RoundTrip.RecordsEncoded | src/lib.rs:406-416 | the record iterator of an encoded section gives back all of its records, ends normally, and stops at the end of the section, one past its last byte |
| RoundTrip.DecodeEncoded | src/lib.rs:327-450 | decoding any well-formed encoded section gives back its functions and its records, and both iterators end normally |
| Examples.GoldenNew | src/lib.rs:327-346 | the parser accepts an 80-byte section with one function, no constants and one record |
| Examples.GoldenFunctions | src/lib.rs:294-315 | that section's function iterator yields the function at 0x1000 with a 32-byte stack |
| Examples.GoldenRecords | src/lib.rs:172-229 | that section's record iterator yields record 7 at offset 16 with its one Direct location [reg 6 - 24], and ends at byte 80 |

## Left out

- Opening the ELF file: `elf::File::open_path` and `get_section` are library calls. The model takes the stack map section as an `Option<Section>`, where `None` is a binary without the section. `ElfParse`, the error of a file that cannot be parsed, is part of the error type, but no modelled operation produces it.
- The `println!` of the section's file offset in `cursor_from_elf`: it is output only, with no effect on the result.
- Error message text: errors carry a reason (`VersionMismatch(expected, found)`, `UnknownLocationKind`, ...) in place of the formatted string.
- Byte order: the reads use `NativeEndian`, the byte order of the host running the decoder. The model fixes little-endian, so big-endian hosts are out of scope.
- The state of an iterator after an error or a panic: the library documents that reusing the iterator is undefined, so a failed step has no next state.
- Lifetimes, borrowing, `Vec::with_capacity` and `Debug`/`PartialEq` derivations: they have no observable effect on decoding.
- The accessor methods (`SMRec::id`, `SMFunc::addr`, `num_stackmaps`, ...): they return fields, which are datatype fields here.
- The tests in `src/lib.rs` and the C program they compile: they need a compiler and binaries. `Examples` holds the same kind of checks on a hand-built section.
- The constant table: the decoder never reads it. It only moves the record table's start, which is modelled.
- An error value for a bad location inside a record: the code never gives one, so the model does not either. It keeps the code's behaviour:
  - An unknown kind is the location iterator's `Other` error, without the offending byte (src/lib.rs:124).
  - A non-zero reserved field is an `assert_eq!` panic (src/lib.rs:258 and 265).
  - A location that fails to decode inside a record is an `expect` panic (src/lib.rs:206). So collecting a record's locations never returns an error.

=== FILE: bytes.dfy ===
/** Fixed-width integers and their little-endian byte encoding.

    The decoder reads every multi-byte field in the byte order of the host
    it runs on; this model fixes that order to little-endian, so big-endian
    hosts are out of scope.
 */
module Bytes {

  type Byte = b: int | 0 <= b < 0x100
  type U16 = n: int | 0 <= n < 0x1_0000
  type U32 = n: int | 0 <= n < 0x1_0000_0000
  type U64 = n: int | 0 <= n < 0x1_0000_0000_0000_0000
  type I32 = n: int | -0x8000_0000 <= n < 0x8000_0000

  /** 256 to the power n: the number of distinct values n bytes can hold. */
  function Pow256(n: nat): (r: nat)
    ensures r >= 1
  {
    if n == 0 then 1 else 256 * Pow256(n - 1)
  }

  /** The unsigned value of a little-endian byte string. */
  function LE(s: seq<Byte>): (v: nat)
    ensures v < Pow256(|s|)
  {
    if |s| == 0 then 0 else s[0] + 256 * LE(s[1..])
  }

  /** The n-byte little-endian encoding of v. */
  function ToLE(v: nat, n: nat): (s: seq<Byte>)
    requires v < Pow256(n)
    ensures |s| == n
    ensures LE(s) == v
  {
    if n == 0 then [] else [v % 256] + ToLE(v / 256, n - 1)
  }

  /** Reading a byte string and encoding the value again gives back the
      same bytes: the little-endian reading is injective per width. */
  lemma {:induction false} ToLEOfLE(s: seq<Byte>)
    ensures ToLE(LE(s), |s|) == s
  {
    if |s| > 0 {
      ToLEOfLE(s[1..]);
      assert (s[0] + 256 * LE(s[1..])) / 256 == LE(s[1..]);
    }
  }

  /** The two's-complement reading of 32 bits: the unique signed 32-bit
      value congruent to u modulo 2^32. */
  function ToI32(u: U32): (i: I32)
    ensures i % 0x1_0000_0000 == u
    ensures i < 0 <==> u >= 0x8000_0000
  {
    if u < 0x8000_0000 then u else u - 0x1_0000_0000
  }

  /** The 32 bits that represent a signed 32-bit value. */
  function FromI32(i: I32): (u: U32)
    ensures u % 0x1_0000_0000 == i % 0x1_0000_0000
  {
    if i >= 0 then i else i + 0x1_0000_0000
  }

  lemma {:induction false} TwosComplementRoundTrip(u: U32, i: I32)
    ensures FromI32(ToI32(u)) == u
    ensures ToI32(FromI32(i)) == i
  {
  }

  /** The bytes e occur in data starting at position p. */
  predicate At(data: seq<Byte>, p: nat, e: seq<Byte>)
  {
    p + |e| <= |data| && data[p..p + |e|] == e
  }

  /** Occurrence of a concatenation is occurrence of each part, back to back. */
  lemma {:induction false} AtConcat(data: seq<Byte>, p: nat, a: seq<Byte>, b: seq<Byte>)
    ensures At(data, p, a + b) <==> At(data, p, a) && At(data, p + |a|, b)
  {
    if p + |a| + |b| <= |data| {
      assert data[p..p + |a| + |b|] == data[p..p + |a|] + data[p + |a|..p + |a| + |b|];
      if At(data, p, a + b) {
        assert data[p..p + |a|] == (a + b)[..|a|];
        assert data[p + |a|..p + |a| + |b|] == (a + b)[|a|..];
      }
    }
  }

  /** The four parts of an occurrence of a four-part concatenation each
      occur, back to back. */
  lemma {:induction false} AtParts4(data: seq<Byte>, p: nat, a: seq<Byte>, b: seq<Byte>, c: seq<Byte>, e: seq<Byte>)
    requires At(data, p, a + b + c + e)
    ensures At(data, p, a)
    ensures At(data, p + |a|, b)
    ensures At(data, p + |a| + |b|, c)
    ensures At(data, p + |a| + |b| + |c|, e)
  {
    AtConcat(data, p, a + b + c, e);
    AtConcat(data, p, a + b, c);
    AtConcat(data, p, a, b);
  }

  /** Only one value of a given width is encoded at a given place. */
  lemma {:induction false} AtUnique(data: seq<Byte>, p: nat, a: nat, b: nat, n: nat)
    requires a < Pow256(n) && b < Pow256(n)
    requires At(data, p, ToLE(a, n)) && At(data, p, ToLE(b, n))
    ensures a == b
  {
    assert ToLE(a, n) == data[p..p + n] == ToLE(b, n);
  }
}

=== FILE: cursor.dfy ===
/** A read position over the stack-map section's bytes, and the forward
    moves the decoder makes with it: fixed-width reads, skips, and
    alignment to the next 8-byte boundary. */
module Cursors {
  import opened Bytes
  import opened Errors

  /** The section's bytes. A Rust vector holds fewer than 2^63 bytes, which
      keeps every position the decoder can read from inside `u64`. */
  type Section = s: seq<Byte> | |s| < 0x8000_0000_0000_0000

  /** A position into the section; it may lie past the end, where only a
      later read fails. */
  datatype Cursor = Cursor(data: Section, pos: U64)

  /** A value read from the section and the cursor after it. */
  datatype Got = Got(value: nat, next: Cursor)

  /** A cursor at start over the stack-map section, which the ELF lookup
      may not have found. Seeking to an absolute position never fails. */
  function FromSection(elf: Option<Section>, start: U64): (r: Res<Cursor>)
    ensures r.Ok? <==> elf.Some?
    ensures r.Ok? ==> r.value.data == elf.value && r.value.pos == start
    ensures elf.None? ==> r == Err(Other(SectionMissing))
  {
    match elf
    case Some(data) => Ok(Cursor(data, start))
    case None => Err(Other(SectionMissing))
  }

  /** The cursor an iterator reads from: the one it holds, or, on its
      first use, a new one at its start position. */
  function Open(elf: Option<Section>, cursor: Option<Cursor>, start: U64): (r: Res<Cursor>)
    ensures cursor.Some? ==> r == Ok(cursor.value)
    ensures cursor.None? ==> r == FromSection(elf, start)
  {
    match cursor
    case Some(c) => Ok(c)
    case None => FromSection(elf, start)
  }

  /** Moves the position by n bytes. Like a seek relative to the current
      position, this fails only when the result would be negative or not
      fit in `u64`; moving past the end of the data is allowed. */
  function Skip(c: Cursor, n: int): (r: Res<Cursor>)
    ensures r.Ok? <==> 0 <= c.pos + n < 0x1_0000_0000_0000_0000
    ensures r.Ok? ==> r.value.data == c.data && r.value.pos - c.pos == n
    ensures !r.Ok? ==> r == Err(IO(InvalidInput))
  {
    if 0 <= c.pos + n < 0x1_0000_0000_0000_0000 then Ok(c.(pos := c.pos + n))
    else Err(IO(InvalidInput))
  }

  /** The number of bytes from p to the next multiple of 8. */
  function Pad8(p: nat): (pad: nat)
    ensures pad < 8
    ensures (p + pad) % 8 == 0
  {
    if p % 8 == 0 then 0 else 8 - p % 8
  }

  /** The padding is the decoder's unsigned formula (8 - p % 8) % 8, in
      which the subtraction cannot wrap since p % 8 is below 8. */
  lemma {:induction false} Pad8Formula(p: nat)
    ensures 0 < 8 - p % 8 <= 8
    ensures Pad8(p) == (8 - p % 8) % 8
  {
  }

  function RoundUp8(p: nat): nat
  {
    p + Pad8(p)
  }

  predicate Aligned8(p: nat)
  {
    p % 8 == 0
  }

  /** Advances the position to the next 8-byte boundary. */
  function Align8(c: Cursor): (r: Res<Cursor>)
    ensures r.Ok? <==> RoundUp8(c.pos) < 0x1_0000_0000_0000_0000
    ensures r.Ok? ==> r.value.data == c.data
    ensures r.Ok? ==> Aligned8(r.value.pos) && c.pos <= r.value.pos < c.pos + 8
    ensures !r.Ok? ==> r == Err(IO(InvalidInput))
  {
    Skip(c, Pad8(c.pos))
  }

  /** Adding a multiple of 8 keeps alignment. */
  lemma {:induction false} AlignedAdd(a: nat, b: nat)
    requires Aligned8(a) && Aligned8(b)
    ensures Aligned8(a + b)
  {
    assert a + b == 8 * (a / 8 + b / 8);
  }

  /** Of all 8-byte boundaries at or after p, RoundUp8(p) is the first. */
  lemma {:induction false} RoundUp8Least(p: nat, m: nat)
    requires Aligned8(m) && p <= m
    ensures RoundUp8(p) <= m
  {
  }

  /** Aligning an aligned position does not move it, so aligning twice is
      the same as aligning once. */
  lemma {:induction false} Align8Idempotent(c: Cursor)
    ensures Aligned8(c.pos) ==> Align8(c) == Ok(c)
    ensures Align8(c).Ok? ==> Align8(Align8(c).value) == Align8(c)
  {
  }

  /** Padding to 8 depends only on the position modulo 8. */
  lemma {:induction false} Pad8Shift(p: nat, x: nat)
    requires Aligned8(p)
    ensures Pad8(p + x) == Pad8(x)
  {
    assert (p + x) % 8 == x % 8;
  }

  /** Reads an unsigned width-byte little-endian value; fails if fewer than
      width bytes remain. */
  function ReadUInt(c: Cursor, width: nat): (r: Res<Got>)
    ensures r.Ok? <==> c.pos + width <= |c.data|
    ensures r.Ok? ==> r.value.next == c.(pos := c.pos + width)
    ensures r.Ok? ==> r.value.value < Pow256(width)
    ensures r.Ok? ==> ToLE(r.value.value, width) == c.data[c.pos..c.pos + width]
    ensures !r.Ok? ==> r == Err(IO(UnexpectedEof))
  {
    if c.pos + width <= |c.data| then
      var bytes := c.data[c.pos..c.pos + width];
      ToLEOfLE(bytes);
      Ok(Got(LE(bytes), c.(pos := c.pos + width)))
    else
      Err(IO(UnexpectedEof))
  }

  /** Reading where a value's encoding occurs gives back that value. */
  lemma {:induction false} ReadEncoded(c: Cursor, v: nat, width: nat)
    requires v < Pow256(width)
    requires At(c.data, c.pos, ToLE(v, width))
    ensures ReadUInt(c, width) == Ok(Got(v, c.(pos := c.pos + width)))
  {
  }

  /** A one-byte read yields the byte at the cursor. */
  lemma {:induction false} ReadByte(c: Cursor)
    requires c.pos < |c.data|
    ensures ReadUInt(c, 1) == Ok(Got(c.data[c.pos], c.(pos := c.pos + 1)))
  {
    assert LE(c.data[c.pos..c.pos + 1]) == c.data[c.pos];
  }
}

=== FILE: encoding.dfy ===
/** The section as a compiler lays it out, and what the decoder makes of
    it.

    The encoder below writes a whole version-3 section from its parts:
    the header and table sizes, the function table, the constant table
    and the records, each record padded to the next 8-byte boundary after
    its location table and again after its live-out table. It is the
    decoder's partner: decoding what it writes gives back the functions
    and records it was given, with the fields the decoder drops (the
    per-function record count, the record flags, the constants and the
    live-outs) dropped. */
module Encoding {
  import opened Bytes
  import opened Errors
  import opened Cursors
  import opened Locations
  import opened Records
  import opened Functions
  import opened Parser
  import Format

  /** A function entry in full, including the number of records that
      belong to the function. */
  datatype FuncEntry = FuncEntry(addr: U64, stackSize: U64, recordCount: U64)

  /** A live register: its DWARF number and its size in bytes. */
  datatype LiveOut = LiveOut(dwarfReg: U16, size: Byte)

  /** A stackmap record in full, including its flags and live-outs. */
  datatype RecordEntry = RecordEntry(id: U64, offset: U32, flags: U16, locs: seq<SMLoc>, liveOuts: seq<LiveOut>)

  /** The contents of a stack-map section. */
  datatype StackMap = StackMap(funcs: seq<FuncEntry>, consts: seq<U64>, records: seq<RecordEntry>)

  function Zeros(n: nat): (z: seq<Byte>)
    ensures |z| == n
  {
    seq(n, _ => 0)
  }

  function EncodeFunc(f: FuncEntry): (e: seq<Byte>)
    ensures |e| == Format.SizeStackSizeEntry
  {
    ToLE(f.addr, 8) + ToLE(f.stackSize, 8) + ToLE(f.recordCount, 8)
  }

  function EncodeFuncs(fs: seq<FuncEntry>): (e: seq<Byte>)
    ensures |e| == 24 * |fs|
  {
    if |fs| == 0 then [] else EncodeFunc(fs[0]) + EncodeFuncs(fs[1..])
  }

  function EncodeConsts(cs: seq<U64>): (e: seq<Byte>)
    ensures |e| == 8 * |cs|
  {
    if |cs| == 0 then [] else ToLE(cs[0], 8) + EncodeConsts(cs[1..])
  }

  /** A live-out entry: the register, a reserved byte and the size. */
  function EncodeLiveOut(l: LiveOut): (e: seq<Byte>)
    ensures |e| == Format.SizeLiveOutEntry
  {
    ToLE(l.dwarfReg, 2) + ToLE(0, 1) + ToLE(l.size, 1)
  }

  function EncodeLiveOuts(ls: seq<LiveOut>): (e: seq<Byte>)
    ensures |e| == 4 * |ls|
  {
    if |ls| == 0 then [] else EncodeLiveOut(ls[0]) + EncodeLiveOuts(ls[1..])
  }

  /** A record the format can hold: both tables have 16-bit counts, and
      the offset of each location has the signedness its kind calls for. */
  predicate WellFormedRecord(r: RecordEntry)
  {
    && |r.locs| < 0x1_0000
    && |r.liveOuts| < 0x1_0000
    && AllOffsetsMatchKinds(r.locs)
  }

  predicate AllWellFormed(rs: seq<RecordEntry>)
  {
    forall i :: 0 <= i < |rs| ==> WellFormedRecord(rs[i])
  }

  /** The 16 bytes a record starts with: its id, its instruction offset,
      its flags and its location count. */
  function RecordHeadBytes(r: RecordEntry): (e: seq<Byte>)
    requires WellFormedRecord(r)
    ensures |e| == 16
  {
    ToLE(r.id, 8) + ToLE(r.offset, 4) + ToLE(r.flags, 2) + ToLE(|r.locs|, 2)
  }

  /** A record up to the 8-byte boundary after its location table. */
  function LocPart(r: RecordEntry): (e: seq<Byte>)
    requires WellFormedRecord(r)
    ensures |e| == RoundUp8(16 + 12 * |r.locs|)
  {
    RecordHeadBytes(r) + EncodeLocs(r.locs) + Zeros(Pad8(16 + 12 * |r.locs|))
  }

  /** The rest of a record: 2 bytes of padding, the live-out count, the
      live-outs and the padding to the next 8-byte boundary. */
  function LiveOutPart(r: RecordEntry): (e: seq<Byte>)
    requires WellFormedRecord(r)
    ensures |e| == RoundUp8(4 + 4 * |r.liveOuts|)
  {
    Zeros(2) + ToLE(|r.liveOuts|, 2) + EncodeLiveOuts(r.liveOuts) + Zeros(Pad8(4 + 4 * |r.liveOuts|))
  }

  /** The length of an encoded record: its head and location table
      rounded up to 8 bytes, then its live-out count and table rounded up
      to 8 bytes. */
  function RecordSize(r: RecordEntry): (n: nat)
    ensures Aligned8(n)
  {
    AlignedAdd(RoundUp8(16 + 12 * |r.locs|), RoundUp8(4 + 4 * |r.liveOuts|));
    RoundUp8(16 + 12 * |r.locs|) + RoundUp8(4 + 4 * |r.liveOuts|)
  }

  /** A record as it lies in the section, starting at an 8-byte boundary. */
  function EncodeRecord(r: RecordEntry): (e: seq<Byte>)
    requires WellFormedRecord(r)
    ensures |e| == RecordSize(r)
    ensures Aligned8(|e|)
  {
    var e := LocPart(r) + LiveOutPart(r);
    AlignedAdd(|LocPart(r)|, |LiveOutPart(r)|);
    e
  }

  function EncodeRecords(rs: seq<RecordEntry>): (e: seq<Byte>)
    requires AllWellFormed(rs)
    ensures Aligned8(|e|)
  {
    if |rs| == 0 then []
    else
      var e := EncodeRecord(rs[0]) + EncodeRecords(rs[1..]);
      AlignedAdd(|EncodeRecord(rs[0])|, |EncodeRecords(rs[1..])|);
      e
  }

  /** The header and the three table sizes. */
  function EncodeHead(sm: StackMap): (e: seq<Byte>)
    requires |sm.funcs| < 0x1_0000_0000 && |sm.consts| < 0x1_0000_0000 && |sm.records| < 0x1_0000_0000
    ensures |e| == Format.OffsStackSizeEntries
  {
    Header + ToLE(|sm.funcs|, 4) + ToLE(|sm.consts|, 4) + ToLE(|sm.records|, 4)
  }

  function EncodeSection(sm: StackMap): (d: seq<Byte>)
    requires |sm.funcs| < 0x1_0000_0000 && |sm.consts| < 0x1_0000_0000 && |sm.records| < 0x1_0000_0000
    requires AllWellFormed(sm.records)
  {
    EncodeHead(sm) + EncodeFuncs(sm.funcs) + EncodeConsts(sm.consts) + EncodeRecords(sm.records)
  }

  /** A section the format can hold and that fits in memory. */
  predicate WellFormed(sm: StackMap)
  {
    && |sm.funcs| < 0x1_0000_0000 && |sm.consts| < 0x1_0000_0000 && |sm.records| < 0x1_0000_0000
    && AllWellFormed(sm.records)
    && |EncodeSection(sm)| < 0x8000_0000_0000_0000
  }

  /** What the decoder reports for a function: the record count is
      dropped. */
  function DecodedFuncs(fs: seq<FuncEntry>): (r: seq<SMFunc>)
    ensures |r| == |fs|
  {
    if |fs| == 0 then [] else [SMFunc(fs[0].addr, fs[0].stackSize)] + DecodedFuncs(fs[1..])
  }

  /** What the decoder reports for a record: the flags and the live-outs
      are dropped, and the location count is the table's length. */
  function DecodedRecord(r: RecordEntry): (rec: SMRec)
    requires WellFormedRecord(r)
    ensures rec.numLocs as int == |rec.locs|
  {
    SMRec(r.id, r.offset, |r.locs|, r.locs)
  }

  function DecodedRecords(rs: seq<RecordEntry>): (r: seq<SMRec>)
    requires AllWellFormed(rs)
    ensures |r| == |rs|
  {
    if |rs| == 0 then []
    else [DecodedRecord(rs[0])] + DecodedRecords(rs[1..])
  }

  /** Reading a function entry where one is encoded gives back its address
      and stack size and moves 24 bytes on. */
  lemma {:induction false} ReadFunctionEncoded(c: Cursor, f: FuncEntry)
    requires At(c.data, c.pos, EncodeFunc(f))
    ensures ReadFunction(c) == Ok((SMFunc(f.addr, f.stackSize), c.(pos := c.pos + Format.SizeStackSizeEntry)))
  {
    AtConcat(c.data, c.pos, ToLE(f.addr, 8) + ToLE(f.stackSize, 8), ToLE(f.recordCount, 8));
    AtConcat(c.data, c.pos, ToLE(f.addr, 8), ToLE(f.stackSize, 8));
    var r := ReadFunction(c).value.0;
    AtUnique(c.data, c.pos, r.addr, f.addr, 8);
    AtUnique(c.data, c.pos + 8, r.stackSize, f.stackSize, 8);
  }

  /** One step of the function iterator over an encoded entry. */
  lemma {:induction false} FuncNextEncoded(it: FuncIter, d: Section, q: U64, f: FuncEntry)
    requires Open(it.elf, it.cursor, it.start) == Ok(Cursor(d, q))
    requires it.remaining > 0
    requires At(d, q, EncodeFunc(f))
    ensures q + 24 < 0x1_0000_0000_0000_0000
    ensures FuncNext(it) ==
      Yielded(SMFunc(f.addr, f.stackSize), it.(cursor := Some(Cursor(d, q + 24)), remaining := it.remaining - 1))
  {
    ReadFunctionEncoded(Cursor(d, q), f);
  }

  lemma {:induction false} RunFuncsStep(it: FuncIter)
    ensures FuncNext(it).Exhausted? ==> RunFuncs(it) == Run([], Finished, it)
    ensures FuncNext(it).Yielded? ==>
      var rest := RunFuncs(FuncNext(it).next);
      RunFuncs(it) == Run([FuncNext(it).item] + rest.items, rest.end, rest.last)
  {
  }

  /** Running the function iterator over an encoded function table gives
      back every function, in order, and stops right after the table. */
  lemma {:induction false} RunFuncsEncoded(it: FuncIter, d: Section, q: U64, fs: seq<FuncEntry>)
    requires Open(it.elf, it.cursor, it.start) == Ok(Cursor(d, q))
    requires |fs| == it.remaining
    requires At(d, q, EncodeFuncs(fs))
    ensures RunFuncs(it).items == DecodedFuncs(fs)
    ensures RunFuncs(it).end == Finished
    ensures |fs| > 0 ==>
      var last := RunFuncs(it).last.cursor;
      last.Some? && last.value.data == d && last.value.pos == q + 24 * |fs|
    decreases |fs|
  {
    if |fs| > 0 {
      AtConcat(d, q, EncodeFunc(fs[0]), EncodeFuncs(fs[1..]));
      FuncNextEncoded(it, d, q, fs[0]);
      var next := it.(cursor := Some(Cursor(d, q + 24)), remaining := it.remaining - 1);
      RunFuncsEncoded(next, d, q + 24, fs[1..]);
      RunFuncsStep(it);
      if |fs| == 1 {
        RunFuncsStep(next);
      }
    }
  }

  /** A record's head bytes hold, where the decoder looks for them, its
      id, its instruction offset and its location count. */
  lemma {:induction false} HeadBytesAt(data: seq<Byte>, p: nat, r: RecordEntry)
    requires WellFormedRecord(r)
    requires At(data, p, RecordHeadBytes(r))
    ensures HeadAt(data, p, r.id, r.offset, |r.locs|)
  {
    var id, off, flags := ToLE(r.id, 8), ToLE(r.offset, 4), ToLE(r.flags, 2);
    AtConcat(data, p, id + off + flags, ToLE(|r.locs|, 2));
    AtConcat(data, p, id + off, flags);
    AtConcat(data, p, id, off);
  }

  /** The live-out count of an encoded record lies 2 bytes past the
      boundary after its location table. */
  lemma {:induction false} LiveOutCountEncoded(data: seq<Byte>, a: nat, r: RecordEntry)
    requires WellFormedRecord(r)
    requires At(data, a, LiveOutPart(r))
    ensures a + 4 <= |data| && LE(data[a + 2..a + 4]) == |r.liveOuts|
  {
    var count := ToLE(|r.liveOuts|, 2);
    AtConcat(data, a, Zeros(2) + count + EncodeLiveOuts(r.liveOuts), Zeros(Pad8(4 + 4 * |r.liveOuts|)));
    AtConcat(data, a, Zeros(2) + count, EncodeLiveOuts(r.liveOuts));
    AtConcat(data, a, Zeros(2), count);
  }

  /** Where the parts of an encoded record lie: its head, its location
      table right after the head, and the live-out part after the padding
      that follows the location table. */
  lemma {:induction false} RecordPartsAt(data: seq<Byte>, p: nat, r: RecordEntry)
    requires WellFormedRecord(r)
    requires At(data, p, EncodeRecord(r))
    ensures At(data, p, RecordHeadBytes(r))
    ensures At(data, p + 16, EncodeLocs(r.locs))
    ensures At(data, p + |LocPart(r)|, LiveOutPart(r))
  {
    AtConcat(data, p, LocPart(r), LiveOutPart(r));
    AtConcat(data, p, RecordHeadBytes(r) + EncodeLocs(r.locs), Zeros(Pad8(16 + 12 * |r.locs|)));
    AtConcat(data, p, RecordHeadBytes(r), EncodeLocs(r.locs));
  }

  /** From an 8-byte boundary p, aligning after the location table lands
      where the live-out part starts. */
  lemma {:induction false} LocPartBound(p: nat, r: RecordEntry)
    requires WellFormedRecord(r)
    requires Aligned8(p)
    ensures RoundUp8(p + 16 + 12 * |r.locs|) == p + |LocPart(r)|
  {
    Pad8Shift(p, 16 + 12 * |r.locs|);
  }

  /** Aligning after the live-outs lands at the end of the record. */
  lemma {:induction false} LiveOutPartBound(p: nat, r: RecordEntry)
    requires WellFormedRecord(r)
    requires Aligned8(p)
    ensures RoundUp8(p + |LocPart(r)| + 4 + 4 * |r.liveOuts|) == p + RecordSize(r)
    ensures Aligned8(p + RecordSize(r))
  {
    AlignedAdd(p, |LocPart(r)|);
    Pad8Shift(p + |LocPart(r)|, 4 + 4 * |r.liveOuts|);
    AlignedAdd(p, |EncodeRecord(r)|);
  }

  /** A record encoded at an 8-byte boundary is, in the decoder's terms, a
      record with its id, offset and locations that ends where its
      encoding ends. */
  lemma {:induction false} RecordEncodedAt(data: Section, p: nat, r: RecordEntry)
    requires WellFormedRecord(r)
    requires Aligned8(p)
    requires At(data, p, EncodeRecord(r))
    ensures RecordAt(data, Some(data), p, DecodedRecord(r), p + RecordSize(r))
  {
    RecordPartsAt(data, p, r);
    HeadBytesAt(data, p, r);
    LiveOutPartBound(p, r);
    LiveOutsEncodedEnd(data, p, r);
  }

  /** The live-out count the decoder finds after an encoded location
      table takes it to the end of the record. */
  lemma {:induction false} LiveOutsEncodedEnd(data: seq<Byte>, p: nat, r: RecordEntry)
    requires WellFormedRecord(r)
    requires Aligned8(p)
    requires At(data, p + |LocPart(r)|, LiveOutPart(r))
    ensures LiveOutsEndAt(data, p + 16 + 12 * |r.locs|, p + RecordSize(r))
  {
    LocPartBound(p, r);
    LiveOutPartBound(p, r);
    LiveOutCountEncoded(data, p + |LocPart(r)|, r);
  }

  lemma {:induction false} DecodedRecordsCons(rs: seq<RecordEntry>)
    requires AllWellFormed(rs) && |rs| > 0
    ensures DecodedRecords(rs) == [DecodedRecord(rs[0])] + DecodedRecords(rs[1..])
  {
  }

  lemma {:induction false} EncodeRecordsLength(rs: seq<RecordEntry>)
    requires AllWellFormed(rs) && |rs| > 0
    ensures |EncodeRecords(rs)| == RecordSize(rs[0]) + |EncodeRecords(rs[1..])|
  {
  }

  /** A record that starts at an 8-byte boundary ends at one. */
  lemma {:induction false} RecordEndAligned(q: nat, r: RecordEntry)
    requires Aligned8(q)
    ensures Aligned8(q + RecordSize(r))
  {
    AlignedAdd(q, RecordSize(r));
  }

  /** The total size of a table of records written back to back. */
  function TableSize(rs: seq<RecordEntry>): (n: nat)
    ensures Aligned8(n)
  {
    if |rs| == 0 then 0
    else
      AlignedAdd(RecordSize(rs[0]), TableSize(rs[1..]));
      RecordSize(rs[0]) + TableSize(rs[1..])
  }

  /** The encoded records of a table take exactly its table size. */
  lemma {:induction false} EncodeRecordsSize(rs: seq<RecordEntry>)
    requires AllWellFormed(rs)
    ensures |EncodeRecords(rs)| == TableSize(rs)
    decreases |rs|
  {
    if |rs| > 0 {
      EncodeRecordsLength(rs);
      EncodeRecordsSize(rs[1..]);
    }
  }

  /** What the decoder sees of a table of records encoded back to back
      from q: each record laid out where the previous one ends. */
  predicate DecodableFrom(d: Section, q: nat, rs: seq<RecordEntry>)
    requires AllWellFormed(rs)
    decreases |rs|
  {
    |rs| > 0 ==>
      && RecordAt(d, Some(d), q, DecodedRecord(rs[0]), q + RecordSize(rs[0]))
      && DecodableFrom(d, q + RecordSize(rs[0]), rs[1..])
  }

  /** The first record of a table encoded from an 8-byte boundary is one
      the decoder reads. */
  lemma {:induction false} EncodedFirst(d: Section, q: nat, rs: seq<RecordEntry>)
    requires Aligned8(q) && AllWellFormed(rs) && |rs| > 0
    requires At(d, q, EncodeRecords(rs))
    ensures RecordAt(d, Some(d), q, DecodedRecord(rs[0]), q + RecordSize(rs[0]))
  {
    AtConcat(d, q, EncodeRecord(rs[0]), EncodeRecords(rs[1..]));
    RecordEncodedAt(d, q, rs[0]);
  }

  /** The rest of a table encoded from an 8-byte boundary follows its first
      record, again from an 8-byte boundary. */
  lemma {:induction false} EncodedRest(d: Section, q: nat, rs: seq<RecordEntry>)
    requires Aligned8(q) && AllWellFormed(rs) && |rs| > 0
    requires At(d, q, EncodeRecords(rs))
    ensures Aligned8(q + RecordSize(rs[0])) && AllWellFormed(rs[1..])
    ensures At(d, q + RecordSize(rs[0]), EncodeRecords(rs[1..]))
  {
    AtConcat(d, q, EncodeRecord(rs[0]), EncodeRecords(rs[1..]));
    RecordEndAligned(q, rs[0]);
  }

  /** A table of records encoded from an 8-byte boundary is one the
      decoder reads record by record. */
  lemma {:induction false} EncodedDecodable(d: Section, q: nat, rs: seq<RecordEntry>)
    requires Aligned8(q) && AllWellFormed(rs)
    requires At(d, q, EncodeRecords(rs))
    ensures DecodableFrom(d, q, rs)
    decreases |rs|
  {
    if |rs| > 0 {
      EncodedFirst(d, q, rs);
      EncodedRest(d, q, rs);
      EncodedDecodable(d, q + RecordSize(rs[0]), rs[1..]);
    }
  }

  lemma {:induction false} DecodableHead(d: Section, q: nat, rs: seq<RecordEntry>)
    requires AllWellFormed(rs) && |rs| > 0
    requires DecodableFrom(d, q, rs)
    ensures RecordAt(d, Some(d), q, DecodedRecord(rs[0]), q + RecordSize(rs[0]))
    ensures AllWellFormed(rs[1..])
    ensures DecodableFrom(d, q + RecordSize(rs[0]), rs[1..])
  {
  }

  /** Running the record iterator over a table the decoder reads record
      by record gives back every record, in order, and stops at the end
      of the table. */
  lemma {:induction false} RunRecsDecodable(it: RecIter, d: Section, q: U64, rs: seq<RecordEntry>)
    requires it.elf == Some(d)
    requires Open(it.elf, it.cursor, it.start) == Ok(Cursor(d, q))
    requires AllWellFormed(rs) && |rs| == it.remaining
    requires DecodableFrom(d, q, rs)
    ensures RunRecs(it).items == DecodedRecords(rs)
    ensures RunRecs(it).end == Finished
    ensures |rs| > 0 ==> RunRecs(it).last.cursor.Some?
    ensures |rs| > 0 ==> RunRecs(it).last.cursor.value.data == d
    ensures |rs| > 0 ==> RunRecs(it).last.cursor.value.pos == q + TableSize(rs)
    decreases |rs|
  {
    if |rs| > 0 {
      DecodableHead(d, q, rs);
      RecNextAt(it, d, q, DecodedRecord(rs[0]), q + RecordSize(rs[0]));
      var end: U64 := q + RecordSize(rs[0]);
      var next := it.(cursor := Some(Cursor(d, end)), remaining := it.remaining - 1);
      RunRecsDecodable(next, d, end, rs[1..]);
      RunRecsStep(it);
      DecodedRecordsCons(rs);
      if |rs| == 1 {
        RunRecsStep(next);
      }
    }
  }

  /** Running the record iterator over a table of records encoded back to
      back from an 8-byte boundary gives back every record, in order, and
      stops at the end of the table. */
  lemma {:induction false} RunRecsEncoded(it: RecIter, d: Section, q: U64, rs: seq<RecordEntry>)
    requires it.elf == Some(d)
    requires Open(it.elf, it.cursor, it.start) == Ok(Cursor(d, q))
    requires Aligned8(q) && AllWellFormed(rs) && |rs| == it.remaining
    requires At(d, q, EncodeRecords(rs))
    ensures RunRecs(it).items == DecodedRecords(rs)
    ensures RunRecs(it).end == Finished
    ensures |rs| > 0 ==> RunRecs(it).last.cursor.Some?
    ensures |rs| > 0 ==> RunRecs(it).last.cursor.value.data == d
    ensures |rs| > 0 ==> RunRecs(it).last.cursor.value.pos == q + |EncodeRecords(rs)|
  {
    EncodedDecodable(d, q, rs);
    EncodeRecordsSize(rs);
    RunRecsDecodable(it, d, q, rs);
  }
}

=== FILE: errors.dfy ===
/** What a decoding step can end in.

    The parser's error type wraps an I/O error, an ELF-library error or a
    message of its own; the messages are modelled by the distinct
    situations that produce them rather than by their text. A panic
    (`assert_eq!` or `expect`) is not an error value at all: it aborts the
    caller, and `Res.Abort` keeps it apart from the recoverable errors.
 */
module Errors {
  import opened Bytes

  datatype Option<+T> = None | Some(value: T)

  /** The I/O error kinds a byte cursor produces: reading past the end of
      the buffer, and seeking to a negative or overflowing position. */
  datatype IoKind = UnexpectedEof | InvalidInput

  /** The situations behind the parser's own error messages. */
  datatype Reason =
    | SectionMissing
    | VersionMismatch(expected: Byte, found: Byte)
    | ReservedByteNonZero(found: Byte)
    | ReservedHalfNonZero(half: U16)
    | UnknownLocationKind

  datatype Error = IO(kind: IoKind) | ElfParse | Other(reason: Reason)

  /** Why the decoder panicked: an `assert_eq!(reserved, 0)` saw a non-zero
      value, or `expect` was applied to a failed location. */
  datatype Panic = AssertZero(found: nat) | ExpectLocation(error: Error)

  /** The outcome of a decoding computation. Used with `:-`, a failure
      returns at once from the enclosing computation, as the source's `?`
      operator and its `itry!` macro do (the `From` conversion into the
      parser's error type is already folded into `Error`); a panic
      propagates the same way, as unwinding does. */
  datatype Res<+T> = Ok(value: T) | Err(error: Error) | Abort(panic: Panic) {

    predicate IsFailure() {
      !Ok?
    }

    function PropagateFailure<U>(): (r: Res<U>)
      requires IsFailure()
      ensures r.IsFailure()
      ensures r.Err? <==> Err?
      ensures Err? ==> r.error == error
      ensures Abort? ==> r.panic == panic
    {
      if Err? then Err(error) else Abort(panic)
    }

    function Extract(): T
      requires Ok?
    {
      value
    }
  }

  /** The outcome of one call of an iterator's `next`: no more items, an
      item together with the iterator's new state, an error (after which
      the iterator must not be used again, so no new state is given), or a
      panic. */
  datatype Step<+T, +S> =
    | Exhausted
    | Yielded(item: T, next: S)
    | Failed(error: Error)
    | Aborted(panic: Panic)

  /** The step an iterator takes when it has items left and decodes the
      next one with the computation r. */
  function StepOf<T, S>(r: Res<(T, S)>): (s: Step<T, S>)
    ensures s.Exhausted? == false
    ensures s.Yielded? <==> r.Ok?
    ensures r.Ok? ==> s.item == r.value.0 && s.next == r.value.1
    ensures r.Err? ==> s == Failed(r.error)
    ensures r.Abort? ==> s == Aborted(r.panic)
  {
    match r
    case Ok((t, st)) => Yielded(t, st)
    case Err(e) => Failed(e)
    case Abort(p) => Aborted(p)
  }

  /** How a caller's loop over an iterator ends: the iterator ran out, or
      the caller stopped at the first error, or the decoder panicked. */
  datatype RunEnd = Finished | Stopped(error: Error) | Panicked(panic: Panic)

  /** The items a loop over an iterator collects, how the loop ended, and
      the iterator state that produced the last step. */
  datatype Run<+T, +S> = Run(items: seq<T>, end: RunEnd, last: S)

  /** A run's items are its first item followed by the items of the rest
      of the run. */
  lemma {:induction false} ConsSplit<T>(s: seq<T>)
    requires |s| > 0
    ensures [s[0]] + s[1..] == s
  {
  }
}

=== FILE: examples.dfy ===
/** Concrete sections and location entries, worked through the decoder. */
module Examples {
  import opened Bytes
  import opened Errors
  import opened Cursors
  import opened Locations
  import opened Records
  import opened Functions
  import opened Parser
  import opened Encoding
  import opened RoundTrip

  /** A location entry with the given kind code, size 8, DWARF register 0,
      zero reserved fields and the offset bytes FF FF FF FF. */
  function AllOnesEntry(kindCode: Byte): (e: seq<Byte>)
    ensures |e| == 12
  {
    [kindCode, 0, 8, 0, 0, 0, 0, 0, 0xFF, 0xFF, 0xFF, 0xFF]
  }

  /** The offset bytes FF FF FF FF read for a Constant location are the
      unsigned value 4294967295. */
  lemma {:induction false} ConstantAllOnes()
    ensures ReadLocation(Cursor(AllOnesEntry(4), 0)) ==
      Ok((SMLoc(Constant, 8, 0, U32(4294967295)), Cursor(AllOnesEntry(4), 12)))
  {
    var l := SMLoc(Constant, 8, 0, U32(4294967295));
    assert EncodeLoc(l) == AllOnesEntry(4);
    ReadLocationEncoded(Cursor(AllOnesEntry(4), 0), l);
  }

  /** The same offset bytes read for a Direct location are the signed
      value -1. */
  lemma {:induction false} DirectAllOnes()
    ensures ReadLocation(Cursor(AllOnesEntry(2), 0)) ==
      Ok((SMLoc(Direct, 8, 0, I32(-1)), Cursor(AllOnesEntry(2), 12)))
  {
    var l := SMLoc(Direct, 8, 0, I32(-1));
    assert EncodeLoc(l) == AllOnesEntry(2);
    ReadLocationEncoded(Cursor(AllOnesEntry(2), 0), l);
  }

  /** One function at 0x1000 with a 32-byte stack frame and one record,
      id 7 at instruction offset 16, whose one location is the stack slot
      24 bytes below DWARF register 6, 8 bytes wide. */
  function Golden(): (sm: StackMap)
    ensures |sm.funcs| == 1 && |sm.consts| == 0 && |sm.records| == 1
  {
    StackMap([FuncEntry(0x1000, 32, 1)], [], [RecordEntry(7, 16, 0, [SMLoc(Direct, 8, 6, I32(-24))], [])])
  }

  /** The section of the golden example is 80 bytes: 16 of header, 24 for
      the function and 40 for the record. */
  lemma {:induction false} GoldenSize(sm: StackMap)
    requires sm == Golden()
    ensures WellFormed(sm)
    ensures |EncodeSection(sm)| == 80
  {
    assert WellFormedRecord(sm.records[0]);
    assert RecordSize(sm.records[0]) == 40;
    assert |EncodeRecords(sm.records)| == 40;
    assert |EncodeFuncs(sm.funcs)| == 24;
    assert |EncodeConsts(sm.consts)| == 0;
  }

  /** The parser accepts the golden section: one function, no constants,
      one record. */
  lemma {:induction false} GoldenNew(sm: StackMap, d: Section)
    requires sm == Golden() && d == EncodeSection(sm)
    ensures New(Some(d)) == Ok(StackMapParser(Some(d), 1, 0, 1))
  {
    GoldenSize(sm);
    NewEncoded(sm, d);
  }

  /** The function iterator over the golden section gives back exactly its
      one function. */
  lemma {:induction false} GoldenFunctions(sm: StackMap, d: Section)
    requires sm == Golden() && d == EncodeSection(sm)
    ensures RunFuncs(IterFunctions(StackMapParser(Some(d), 1, 0, 1))).items == [SMFunc(0x1000, 32)]
    ensures RunFuncs(IterFunctions(StackMapParser(Some(d), 1, 0, 1))).end == Finished
  {
    GoldenSize(sm);
    FunctionsEncoded(sm, d);
    assert ParserOf(d, sm) == StackMapParser(Some(d), 1, 0, 1);
    assert DecodedFuncs(sm.funcs) == [SMFunc(0x1000, 32)];
  }

  /** The record iterator over the golden section gives back exactly its
      one record and stops at the end of the section, with nothing left
      over. */
  lemma {:induction false} GoldenRecords(sm: StackMap, d: Section)
    requires sm == Golden() && d == EncodeSection(sm)
    ensures RunRecs(IterStackmaps(StackMapParser(Some(d), 1, 0, 1))).items == [SMRec(7, 16, 1, [SMLoc(Direct, 8, 6, I32(-24))])]
    ensures RunRecs(IterStackmaps(StackMapParser(Some(d), 1, 0, 1))).end == Finished
    ensures RunRecs(IterStackmaps(StackMapParser(Some(d), 1, 0, 1))).last.cursor == Some(Cursor(d, 80))
  {
    GoldenSize(sm);
    RecordsEncoded(sm, d);
    assert ParserOf(d, sm) == StackMapParser(Some(d), 1, 0, 1);
    assert DecodedRecords(sm.records) == [SMRec(7, 16, 1, [SMLoc(Direct, 8, 6, I32(-24))])];
  }
}

=== FILE: format.dfy ===
/** The constants of version 3 of LLVM's Stack Map Format as the decoder
    uses them: the one supported version, the fixed entry sizes in bytes,
    and the offset at which the function table starts. */
module Format {

  const StackMapVersion: int := 3

  const SizeStackSizeEntry: int := 24
  const SizeConstantEntry: int := 8
  const SizeLocEntry: int := 12
  const SizeLiveOutEntry: int := 4

  const OffsStackSizeEntries: int := 16
}

=== FILE: functions.dfy ===
/** Function entries: one fixed 24-byte record per compiled function
    with safepoints, holding its address, its stack size and a record
    count the decoder skips without exposing. */
module Functions {
  import opened Bytes
  import opened Errors
  import opened Cursors
  import Format

  datatype SMFunc = SMFunc(addr: U64, stackSize: U64)

  /** Reads one function entry: the address, the stack size, then a skip
      over the record count. The skip does not look at the data, so only
      the first 16 bytes need to be present. */
  function ReadFunction(c: Cursor): (r: Res<(SMFunc, Cursor)>)
    ensures r.Ok? <==> c.pos + 16 <= |c.data|
    ensures r.Ok? ==> At(c.data, c.pos, ToLE(r.value.0.addr, 8))
    ensures r.Ok? ==> At(c.data, c.pos + 8, ToLE(r.value.0.stackSize, 8))
    ensures r.Ok? ==> r.value.1 == c.(pos := c.pos + Format.SizeStackSizeEntry)
    ensures !r.Ok? ==> r == Err(IO(UnexpectedEof))
  {
    var addr :- ReadUInt(c, 8);
    var stackSize :- ReadUInt(addr.next, 8);
    match Skip(stackSize.next, 8)
    case Err(e) => Err(e)
    case Abort(p) => Abort(p)
    case Ok(end) => Ok((SMFunc(addr.value, stackSize.value), end))
  }

  /** The iterator over the function entries. It makes its cursor over the
      section, at start, the first time it is advanced. */
  datatype FuncIter = FuncIter(elf: Option<Section>, cursor: Option<Cursor>, start: U64, remaining: U32)

  /** One call of the function iterator's `next`. With no functions left
      it returns nothing without looking at the section; otherwise it
      decodes one entry, exactly 24 bytes on, and counts it only if the
      decode succeeds. */
  function FuncNext(it: FuncIter): (s: Step<SMFunc, FuncIter>)
    ensures s.Exhausted? <==> it.remaining == 0
    ensures s.Yielded? <==>
      && it.remaining > 0
      && Open(it.elf, it.cursor, it.start).Ok?
      && Open(it.elf, it.cursor, it.start).value.pos + 16 <= |Open(it.elf, it.cursor, it.start).value.data|
    ensures s.Yielded? ==>
      var c := Open(it.elf, it.cursor, it.start).value;
      && At(c.data, c.pos, ToLE(s.item.addr, 8))
      && At(c.data, c.pos + 8, ToLE(s.item.stackSize, 8))
      && s.next == it.(cursor := Some(c.(pos := c.pos + Format.SizeStackSizeEntry)),
                       remaining := it.remaining - 1)
    ensures s.Failed? ==>
      s.error == IO(UnexpectedEof) || (it.cursor.None? && s.error == Other(SectionMissing))
    ensures !s.Aborted?
  {
    if it.remaining == 0 then Exhausted
    else StepOf(FuncAdvance(it))
  }

  function FuncAdvance(it: FuncIter): Res<(SMFunc, FuncIter)>
    requires it.remaining > 0
  {
    var c :- Open(it.elf, it.cursor, it.start);
    var r :- ReadFunction(c);
    Ok((r.0, it.(cursor := Some(r.1), remaining := it.remaining - 1)))
  }

  /** A caller's loop over the function iterator, stopping at the first
      error. It ends normally exactly when it has collected as many
      entries as the iterator had left. */
  function RunFuncs(it: FuncIter): (r: Run<SMFunc, FuncIter>)
    decreases it.remaining
    ensures r.end.Finished? <==> |r.items| == it.remaining
    ensures |r.items| <= it.remaining
    ensures r.end.Finished? ==> FuncNext(r.last) == Exhausted
    ensures !r.end.Panicked?
  {
    match FuncNext(it)
    case Exhausted => Run([], Finished, it)
    case Yielded(f, next) =>
      var rest := RunFuncs(next);
      Run([f] + rest.items, rest.end, rest.last)
    case Failed(e) => Run([], Stopped(e), it)
    case Aborted(p) => Run([], Panicked(p), it)
  }
}

=== FILE: locations.dfy ===
/** Location entries: where one live value resides at a safepoint.

    A location entry is 12 bytes on the wire: a kind code, a reserved
    byte, the value's size, a DWARF register number, a reserved 16-bit
    field and a 32-bit offset. The offset is unsigned when the kind is
    Constant and signed for every other kind, following LLVM's own
    stack-map reader rather than its documentation.
 */
module Locations {
  import opened Bytes
  import opened Errors
  import opened Cursors
  import Format

  datatype LocKind = Register | Direct | Indirect | Constant | ConstIndex

  datatype LocOffset = I32(signed: I32) | U32(unsigned: U32)

  datatype SMLoc = SMLoc(kind: LocKind, size: U16, dwarfReg: U16, offset: LocOffset)

  /** The wire code of each location kind. */
  function KindCode(k: LocKind): Byte
  {
    match k
    case Register => 1
    case Direct => 2
    case Indirect => 3
    case Constant => 4
    case ConstIndex => 5
  }

  /** Maps a wire code to its location kind; any other code is an error. */
  function FromHex(b: Byte): (r: Res<LocKind>)
    ensures r.Ok? <==> 1 <= b <= 5
    ensures r.Ok? ==> KindCode(r.value) == b
    ensures !r.Ok? ==> r == Err(Other(UnknownLocationKind))
  {
    match b
    case 1 => Ok(Register)
    case 2 => Ok(Direct)
    case 3 => Ok(Indirect)
    case 4 => Ok(Constant)
    case 5 => Ok(ConstIndex)
    case _ => Err(Other(UnknownLocationKind))
  }

  /** Every kind's wire code maps back to that kind. */
  lemma {:induction false} FromHexKindCode(k: LocKind)
    ensures FromHex(KindCode(k)) == Ok(k)
  {
  }

  /** The offset is unsigned exactly for Constant locations. */
  predicate OffsetMatchesKind(l: SMLoc)
  {
    l.offset.U32? <==> l.kind == Constant
  }

  /** The 32 bits the offset was read from. */
  function OffsetBits(o: LocOffset): U32
  {
    match o
    case I32(i) => FromI32(i)
    case U32(u) => u
  }

  /** The 12 wire bytes of a location entry with the given fields and
      zero reserved fields. */
  function LocBytes(kindCode: Byte, size: U16, dwarfReg: U16, bits: U32): (e: seq<Byte>)
    ensures |e| == Format.SizeLocEntry
  {
    ToLE(kindCode, 1) + ToLE(0, 1) + ToLE(size, 2) + ToLE(dwarfReg, 2) + ToLE(0, 2) + ToLE(bits, 4)
  }

  function EncodeLoc(l: SMLoc): (e: seq<Byte>)
    ensures |e| == Format.SizeLocEntry
  {
    LocBytes(KindCode(l.kind), l.size, l.dwarfReg, OffsetBits(l.offset))
  }

  /** Decodes one location entry at the cursor. An unknown kind and a read
      past the end are errors; a non-zero reserved field fails an
      assertion and panics. */
  function ReadLocation(c: Cursor): (r: Res<(SMLoc, Cursor)>)
    ensures r.Ok? ==> OffsetMatchesKind(r.value.0)
    ensures r.Ok? ==> At(c.data, c.pos, EncodeLoc(r.value.0))
    ensures r.Ok? ==> r.value.1 == c.(pos := c.pos + Format.SizeLocEntry)
    ensures r.Err? ==> r.error == IO(UnexpectedEof) || r.error == Other(UnknownLocationKind)
    ensures r.Abort? ==> r.panic.AssertZero? && r.panic.found != 0
  {
    var k :- ReadUInt(c, 1);
    var kind :- FromHex(k.value);
    var r1 :- ReadUInt(k.next, 1);
    if r1.value != 0 then Abort(AssertZero(r1.value)) else
    var size :- ReadUInt(r1.next, 2);
    var reg :- ReadUInt(size.next, 2);
    var r2 :- ReadUInt(reg.next, 2);
    if r2.value != 0 then Abort(AssertZero(r2.value)) else
    var off :- ReadUInt(r2.next, 4);
    var offset := if kind == Constant then U32(off.value) else I32(ToI32(off.value));
    var loc := SMLoc(kind, size.value, reg.value, offset);
    TwosComplementRoundTrip(off.value, 0);
    LocBytesAt(c.data, c.pos, KindCode(kind), size.value, reg.value, off.value);
    Ok((loc, off.next))
  }

  /** Six fields read back to back form one location entry. */
  lemma {:induction false} LocBytesAt(data: seq<Byte>, p: nat, kindCode: Byte, size: U16, dwarfReg: U16, bits: U32)
    requires At(data, p, ToLE(kindCode, 1))
    requires At(data, p + 1, ToLE(0, 1))
    requires At(data, p + 2, ToLE(size, 2))
    requires At(data, p + 4, ToLE(dwarfReg, 2))
    requires At(data, p + 6, ToLE(0, 2))
    requires At(data, p + 8, ToLE(bits, 4))
    ensures At(data, p, LocBytes(kindCode, size, dwarfReg, bits))
  {
    var a := ToLE(kindCode, 1);
    var b := a + ToLE(0, 1);
    var d := b + ToLE(size, 2);
    var e := d + ToLE(dwarfReg, 2);
    var f := e + ToLE(0, 2);
    AtConcat(data, p, a, ToLE(0, 1));
    AtConcat(data, p, b, ToLE(size, 2));
    AtConcat(data, p, d, ToLE(dwarfReg, 2));
    AtConcat(data, p, e, ToLE(0, 2));
    AtConcat(data, p, f, ToLE(bits, 4));
  }

  /** The six fields of a location entry occur where the entry occurs. */
  lemma {:induction false} LocBytesParts(data: seq<Byte>, p: nat, kindCode: Byte, size: U16, dwarfReg: U16, bits: U32)
    requires At(data, p, LocBytes(kindCode, size, dwarfReg, bits))
    ensures At(data, p, ToLE(kindCode, 1))
    ensures At(data, p + 1, ToLE(0, 1))
    ensures At(data, p + 2, ToLE(size, 2))
    ensures At(data, p + 4, ToLE(dwarfReg, 2))
    ensures At(data, p + 6, ToLE(0, 2))
    ensures At(data, p + 8, ToLE(bits, 4))
  {
    var a := ToLE(kindCode, 1);
    var b := a + ToLE(0, 1);
    var d := b + ToLE(size, 2);
    var e := d + ToLE(dwarfReg, 2);
    var f := e + ToLE(0, 2);
    AtConcat(data, p, f, ToLE(bits, 4));
    AtConcat(data, p, e, ToLE(0, 2));
    AtConcat(data, p, d, ToLE(dwarfReg, 2));
    AtConcat(data, p, b, ToLE(size, 2));
    AtConcat(data, p, a, ToLE(0, 1));
  }

  /** Decoding the encoding of a location gives back that location and
      moves the cursor past its 12 bytes. */
  lemma {:induction false} ReadLocationEncoded(c: Cursor, l: SMLoc)
    requires OffsetMatchesKind(l)
    requires At(c.data, c.pos, EncodeLoc(l))
    ensures ReadLocation(c) == Ok((l, c.(pos := c.pos + Format.SizeLocEntry)))
  {
    var p := c.pos;
    var bits := OffsetBits(l.offset);
    LocBytesParts(c.data, p, KindCode(l.kind), l.size, l.dwarfReg, bits);
    ReadEncoded(c, KindCode(l.kind), 1);
    FromHexKindCode(l.kind);
    ReadEncoded(c.(pos := p + 1), 0, 1);
    ReadEncoded(c.(pos := p + 2), l.size, 2);
    ReadEncoded(c.(pos := p + 4), l.dwarfReg, 2);
    ReadEncoded(c.(pos := p + 6), 0, 2);
    ReadEncoded(c.(pos := p + 8), bits, 4);
    if l.offset.I32? {
      TwosComplementRoundTrip(0, l.offset.signed);
    }
  }

  /** A kind code outside 1..5 is an error, whatever follows it. */
  lemma {:induction false} UnknownKindIsError(c: Cursor)
    requires c.pos < |c.data|
    requires !(1 <= c.data[c.pos] <= 5)
    ensures ReadLocation(c) == Err(Other(UnknownLocationKind))
  {
    ReadByte(c);
  }

  /** A known kind followed by a non-zero reserved byte panics. */
  lemma {:induction false} ReservedByteAborts(c: Cursor)
    requires c.pos + 2 <= |c.data|
    requires 1 <= c.data[c.pos] <= 5
    requires c.data[c.pos + 1] != 0
    ensures ReadLocation(c) == Abort(AssertZero(c.data[c.pos + 1]))
  {
    ReadByte(c);
    ReadByte(c.(pos := c.pos + 1));
  }

  /** A well-formed start followed by a non-zero reserved 16-bit field
      panics, reporting the field's value. */
  lemma {:induction false} ReservedHalfAborts(c: Cursor)
    requires c.pos + 8 <= |c.data|
    requires 1 <= c.data[c.pos] <= 5 && c.data[c.pos + 1] == 0
    requires c.data[c.pos + 6] != 0 || c.data[c.pos + 7] != 0
    ensures ReadLocation(c) == Abort(AssertZero(c.data[c.pos + 6] as int + 256 * c.data[c.pos + 7] as int))
  {
    var p := c.pos;
    ReadByte(c);
    ReadByte(c.(pos := p + 1));
    var half := c.data[p + 6..p + 8];
    assert LE(half) == c.data[p + 6] as int + 256 * c.data[p + 7] as int by {
      assert half[1..][1..] == [];
    }
  }

  /** Every way a location decode can fail is caused by the bytes at the
      cursor: a panic carries a non-zero reserved field that is present,
      the kind error needs a kind byte outside 1..5, and a read past the
      end needs the entry to be cut short. */
  lemma {:induction false} ReadLocationFailures(c: Cursor)
    ensures ReadLocation(c).Abort? ==>
      || (c.pos + 2 <= |c.data| && c.data[c.pos + 1] != 0
          && ReadLocation(c).panic == AssertZero(c.data[c.pos + 1]))
      || (c.pos + 8 <= |c.data| && c.data[c.pos + 1] == 0
          && ReadLocation(c).panic == AssertZero(LE(c.data[c.pos + 6..c.pos + 8])))
    ensures ReadLocation(c) == Err(Other(UnknownLocationKind)) ==>
      c.pos < |c.data| && !(1 <= c.data[c.pos] <= 5)
    ensures ReadLocation(c) == Err(IO(UnexpectedEof)) ==> |c.data| < c.pos + Format.SizeLocEntry
  {
    if c.pos < |c.data| {
      ReadByte(c);
    }
    if c.pos + 2 <= |c.data| {
      ReadByte(c.(pos := c.pos + 1));
    }
  }

  /** The iterator over one record's location table. It makes its own
      cursor over the section, at start, the first time it is advanced. */
  datatype LocIter = LocIter(elf: Option<Section>, cursor: Option<Cursor>, start: U64, remaining: U16)

  /** One call of the location iterator's `next`. */
  function LocNext(it: LocIter): (s: Step<SMLoc, LocIter>)
    ensures s.Exhausted? <==> it.remaining == 0
    ensures s.Yielded? ==>
      var c := Open(it.elf, it.cursor, it.start);
      && c.Ok?
      && OffsetMatchesKind(s.item)
      && At(c.value.data, c.value.pos, EncodeLoc(s.item))
      && s.next == it.(cursor := Some(c.value.(pos := c.value.pos + Format.SizeLocEntry)),
                       remaining := it.remaining - 1)
  {
    if it.remaining == 0 then Exhausted
    else StepOf(LocAdvance(it))
  }

  function LocAdvance(it: LocIter): Res<(SMLoc, LocIter)>
    requires it.remaining > 0
  {
    var c :- Open(it.elf, it.cursor, it.start);
    var r :- ReadLocation(c);
    Ok((r.0, it.(cursor := Some(r.1), remaining := it.remaining - 1)))
  }

  /** A location table: the entries back to back. */
  function EncodeLocs(ls: seq<SMLoc>): (e: seq<Byte>)
    ensures |e| == 12 * |ls|
  {
    if |ls| == 0 then [] else EncodeLoc(ls[0]) + EncodeLocs(ls[1..])
  }

  predicate AllOffsetsMatchKinds(ls: seq<SMLoc>)
  {
    forall i :: 0 <= i < |ls| ==> OffsetMatchesKind(ls[i])
  }

  /** Collects every location of the iterator in wire order, as the record
      decoder does with `expect`: a location that fails to decode panics,
      so the collection never ends in a recoverable error. */
  function CollectLocs(it: LocIter): (r: Res<seq<SMLoc>>)
    decreases it.remaining
    ensures !r.Err?
    ensures LocNext(it).Failed? ==> r == Abort(ExpectLocation(LocNext(it).error))
    ensures LocNext(it).Aborted? ==> r == Abort(LocNext(it).panic)
    ensures r.Ok? ==> |r.value| == it.remaining
    ensures r.Ok? ==> AllOffsetsMatchKinds(r.value)
    ensures r.Ok? && it.remaining > 0 ==>
      var c := Open(it.elf, it.cursor, it.start);
      c.Ok? && At(c.value.data, c.value.pos, EncodeLocs(r.value))
  {
    match LocNext(it)
    case Exhausted => Ok([])
    case Yielded(l, next) =>
      var rest := CollectLocs(next);
      if rest.Ok? then
        LocsAtCons(it, l, next, rest.value);
        Ok([l] + rest.value)
      else
        rest
    case Failed(e) => Abort(ExpectLocation(e))
    case Aborted(p) => Abort(p)
  }

  /** A location decoded at the iterator's cursor, followed by the table
      the advanced iterator finds, is the table the iterator finds. */
  lemma {:induction false} LocsAtCons(it: LocIter, l: SMLoc, next: LocIter, rest: seq<SMLoc>)
    requires LocNext(it) == Yielded(l, next)
    requires AllOffsetsMatchKinds(rest)
    requires next.remaining > 0 ==>
      var c := Open(next.elf, next.cursor, next.start);
      c.Ok? && At(c.value.data, c.value.pos, EncodeLocs(rest))
    requires |rest| == next.remaining
    ensures AllOffsetsMatchKinds([l] + rest)
    ensures
      var c := Open(it.elf, it.cursor, it.start);
      c.Ok? && At(c.value.data, c.value.pos, EncodeLocs([l] + rest))
  {
    KindsCons(l, rest);
    var c := Open(it.elf, it.cursor, it.start).value;
    if |rest| == 0 {
      LocBytesOne(c, l);
    } else {
      LocBytesCons(c, l, rest);
    }
  }

  /** The bytes of one location are the bytes of the table holding only it. */
  lemma {:induction false} LocBytesOne(c: Cursor, l: SMLoc)
    requires At(c.data, c.pos, EncodeLoc(l))
    ensures At(c.data, c.pos, EncodeLocs([l]))
  {
    EncodeLocsCons(l, []);
    assert EncodeLoc(l) + [] == EncodeLoc(l);
  }

  /** A location's bytes followed by a table's bytes are the bytes of the
      longer table. */
  lemma {:induction false} LocBytesCons(c: Cursor, l: SMLoc, rest: seq<SMLoc>)
    requires At(c.data, c.pos, EncodeLoc(l))
    requires At(c.data, c.pos + 12, EncodeLocs(rest))
    ensures At(c.data, c.pos, EncodeLocs([l] + rest))
  {
    EncodeLocsCons(l, rest);
    AtConcat(c.data, c.pos, EncodeLoc(l), EncodeLocs(rest));
  }

  lemma {:induction false} KindsCons(l: SMLoc, rest: seq<SMLoc>)
    requires OffsetMatchesKind(l) && AllOffsetsMatchKinds(rest)
    ensures AllOffsetsMatchKinds([l] + rest)
  {
  }

  lemma {:induction false} EncodeLocsCons(l: SMLoc, rest: seq<SMLoc>)
    ensures EncodeLocs([l] + rest) == EncodeLoc(l) + EncodeLocs(rest)
  {
    assert ([l] + rest)[1..] == rest;
  }

  /** A table of encoded locations is its first entry followed by the
      rest of the table. */
  lemma {:induction false} LocsHead(data: seq<Byte>, p: nat, ls: seq<SMLoc>)
    requires |ls| > 0 && AllOffsetsMatchKinds(ls)
    requires At(data, p, EncodeLocs(ls))
    ensures OffsetMatchesKind(ls[0]) && AllOffsetsMatchKinds(ls[1..])
    ensures At(data, p, EncodeLoc(ls[0]))
    ensures At(data, p + Format.SizeLocEntry, EncodeLocs(ls[1..]))
  {
    AtConcat(data, p, EncodeLoc(ls[0]), EncodeLocs(ls[1..]));
  }

  /** One step of the location iterator over an encoded entry. */
  lemma {:induction false} LocNextEncoded(it: LocIter, c: Cursor, l: SMLoc)
    requires Open(it.elf, it.cursor, it.start) == Ok(c)
    requires it.remaining > 0
    requires OffsetMatchesKind(l)
    requires At(c.data, c.pos, EncodeLoc(l))
    ensures c.pos + Format.SizeLocEntry < 0x1_0000_0000_0000_0000
    ensures LocNext(it) ==
      Yielded(l, it.(cursor := Some(c.(pos := c.pos + Format.SizeLocEntry)), remaining := it.remaining - 1))
  {
    ReadLocationEncoded(c, l);
  }

  /** Collecting a table of locations that are encoded back to back at the
      iterator's cursor gives back exactly those locations. */
  lemma {:induction false} CollectLocsEncoded(it: LocIter, c: Cursor, ls: seq<SMLoc>)
    requires Open(it.elf, it.cursor, it.start) == Ok(c)
    requires |ls| == it.remaining
    requires AllOffsetsMatchKinds(ls)
    requires At(c.data, c.pos, EncodeLocs(ls))
    ensures CollectLocs(it) == Ok(ls)
    decreases it.remaining
  {
    if |ls| > 0 {
      LocsHead(c.data, c.pos, ls);
      LocNextEncoded(it, c, ls[0]);
      var c' := c.(pos := c.pos + Format.SizeLocEntry);
      CollectLocsEncoded(it.(cursor := Some(c'), remaining := it.remaining - 1), c', ls[1..]);
      ConsSplit(ls);
    }
  }
}

=== FILE: parser.dfy ===
/** The parser's entry point: it checks the section's 4-byte header,
    reads the three table sizes that follow it, and hands out iterators
    over the function table and the stackmap records.

    The section starts with a version byte (3), a reserved byte and a
    reserved 16-bit field, then the number of function entries, of
    constants and of records, each a 32-bit value. The function table
    starts at byte 16, the constant table after it, and the records
    after that. */
module Parser {
  import opened Bytes
  import opened Errors
  import opened Cursors
  import opened Functions
  import opened Records
  import Format

  /** The parser: the stack-map section of the opened object file (which
      the ELF lookup may not find) and the three table sizes. */
  datatype StackMapParser = StackMapParser(elf: Option<Section>, numFuncs: U32, numConsts: U32, numStackmaps: U32)

  /** The four header bytes a version-3 section starts with. */
  const Header: seq<Byte> := [3, 0, 0, 0]

  /** Checks the header at the cursor: the version first, then the
      reserved byte, then the reserved 16-bit field, each failing as soon
      as it is read wrongly or cannot be read. A wrong version is reported
      whatever follows it. */
  function CheckHeader(c: Cursor): (r: Res<Cursor>)
    ensures r.Ok? <==> At(c.data, c.pos, Header)
    ensures r.Ok? ==> r.value == c.(pos := c.pos + 4)
    ensures !r.Ok? ==> r.Err?
    ensures c.pos >= |c.data| ==> r == Err(IO(UnexpectedEof))
    ensures c.pos < |c.data| && c.data[c.pos] != Format.StackMapVersion ==>
      r == Err(Other(VersionMismatch(3, c.data[c.pos])))
    ensures c.pos + 2 <= |c.data| && c.data[c.pos] == 3 && c.data[c.pos + 1] != 0 ==>
      r == Err(Other(ReservedByteNonZero(c.data[c.pos + 1])))
    ensures
      && c.pos + 4 <= |c.data| && c.data[c.pos] == 3 && c.data[c.pos + 1] == 0
      && (c.data[c.pos + 2] != 0 || c.data[c.pos + 3] != 0)
      ==>
      r == Err(Other(ReservedHalfNonZero(c.data[c.pos + 2] as int + 256 * c.data[c.pos + 3] as int)))
    ensures
      && c.pos + 4 > |c.data|
      && (c.pos < |c.data| ==> c.data[c.pos] == 3)
      && (c.pos + 1 < |c.data| ==> c.data[c.pos + 1] == 0)
      ==>
      r == Err(IO(UnexpectedEof))
  {
    HeaderReads(c);
    var version :- ReadUInt(c, 1);
    if version.value != Format.StackMapVersion then
      Err(Other(VersionMismatch(3, version.value)))
    else
      var b1 :- ReadUInt(version.next, 1);
      if b1.value != 0 then
        Err(Other(ReservedByteNonZero(b1.value)))
      else
        var b23 :- ReadUInt(b1.next, 2);
        if b23.value != 0 then
          Err(Other(ReservedHalfNonZero(b23.value)))
        else
          Ok(b23.next)
  }

  /** What each of the header reads finds, byte by byte. */
  lemma {:induction false} HeaderReads(c: Cursor)
    ensures c.pos < |c.data| ==> ReadUInt(c, 1) == Ok(Got(c.data[c.pos], c.(pos := c.pos + 1)))
    ensures c.pos + 2 <= |c.data| ==>
      ReadUInt(c.(pos := c.pos + 1), 1) == Ok(Got(c.data[c.pos + 1], c.(pos := c.pos + 2)))
    ensures c.pos + 4 <= |c.data| ==>
      ReadUInt(c.(pos := c.pos + 2), 2) ==
      Ok(Got(c.data[c.pos + 2] as int + 256 * c.data[c.pos + 3] as int, c.(pos := c.pos + 4)))
    ensures At(c.data, c.pos, Header) <==>
      && c.pos + 4 <= |c.data|
      && c.data[c.pos] == 3 && c.data[c.pos + 1] == 0
      && c.data[c.pos + 2] == 0 && c.data[c.pos + 3] == 0
  {
    var p := c.pos;
    if p < |c.data| {
      ReadByte(c);
    }
    if p + 2 <= |c.data| {
      ReadByte(c.(pos := p + 1));
    }
    if p + 4 <= |c.data| {
      var half := c.data[p + 2..p + 4];
      assert LE(half) == c.data[p + 2] as int + 256 * c.data[p + 3] as int by {
        assert half[1..][1..] == [];
      }
    }
  }

  /** Builds a parser over the section: a cursor at its start, the header
      check, then the three 32-bit table sizes. A missing section, a bad
      header or a section too short for the sizes is an error. */
  function New(elf: Option<Section>): (r: Res<StackMapParser>)
    ensures r.Ok? <==> elf.Some? && At(elf.value, 0, Header) && 16 <= |elf.value|
    ensures r.Ok? ==>
      && r.value.elf == elf
      && At(elf.value, 4, ToLE(r.value.numFuncs, 4))
      && At(elf.value, 8, ToLE(r.value.numConsts, 4))
      && At(elf.value, 12, ToLE(r.value.numStackmaps, 4))
    ensures !r.Ok? ==> r.Err?
    ensures elf.None? ==> r == Err(Other(SectionMissing))
    ensures elf.Some? && !At(elf.value, 0, Header) ==> r == Err(CheckHeader(Cursor(elf.value, 0)).error)
    ensures elf.Some? && At(elf.value, 0, Header) && |elf.value| < 16 ==> r == Err(IO(UnexpectedEof))
  {
    var c :- FromSection(elf, 0);
    var afterHeader :- CheckHeader(c);
    var numFuncs :- ReadUInt(afterHeader, 4);
    var numConsts :- ReadUInt(numFuncs.next, 4);
    var numStackmaps :- ReadUInt(numConsts.next, 4);
    Ok(StackMapParser(elf, numFuncs.value, numConsts.value, numStackmaps.value))
  }

  /** An iterator over the function table, which starts right after the
      16-byte header and size fields. */
  function IterFunctions(p: StackMapParser): (it: FuncIter)
    ensures it.start == Format.OffsStackSizeEntries
    ensures it.elf == p.elf && it.cursor.None? && it.remaining == p.numFuncs
  {
    FuncIter(p.elf, None, Format.OffsStackSizeEntries, p.numFuncs)
  }

  /** An iterator over the stackmap records, which start after the function
      table and the constant table. The start position is computed in
      `u64` and cannot overflow: with both counts below 2^32 it stays below
      2^37. It is always a multiple of 8, as a record's start must be. */
  function IterStackmaps(p: StackMapParser): (it: RecIter)
    ensures Format.OffsStackSizeEntries <= it.start < 0x20_0000_0000
    ensures Aligned8(it.start)
    ensures it.elf == p.elf && it.cursor.None? && it.remaining == p.numStackmaps
  {
    var start := Format.OffsStackSizeEntries + p.numFuncs * Format.SizeStackSizeEntry + p.numConsts * Format.SizeConstantEntry;
    RecIter(p.elf, None, start, p.numStackmaps)
  }
}

=== FILE: records.dfy ===
/** Stackmap records: one per safepoint, of variable length.

    A record is an 8-byte id, a 4-byte instruction offset, 2 reserved
    bytes, a 2-byte location count and that many 12-byte location entries;
    then padding to the next 8-byte boundary, 2 more bytes of padding, a
    2-byte live-out count, 4 bytes per live-out, and padding to the next
    8-byte boundary again. Live-outs are skipped, never decoded.
 */
module Records {
  import opened Bytes
  import opened Errors
  import opened Cursors
  import opened Locations
  import Format

  datatype SMRec = SMRec(id: U64, offset: U32, numLocs: U16, locs: seq<SMLoc>)

  /** The fixed-size start of a record and the cursor after it. */
  datatype RecordHead = RecordHead(id: U64, offset: U32, numLocs: U16, next: Cursor)

  /** The fixed-size start of a record at p: the id, the instruction
      offset and, after 2 reserved bytes, the location count. */
  predicate HeadAt(data: seq<Byte>, p: nat, id: U64, offset: U32, numLocs: U16)
  {
    && At(data, p, ToLE(id, 8))
    && At(data, p + 8, ToLE(offset, 4))
    && At(data, p + 14, ToLE(numLocs, 2))
  }

  /** Reads the id, the instruction offset and the location count,
      skipping the reserved flags between the last two. */
  function ReadRecordHead(c: Cursor): (r: Res<RecordHead>)
    ensures r.Ok? <==> c.pos + 16 <= |c.data|
    ensures r.Ok? ==> HeadAt(c.data, c.pos, r.value.id, r.value.offset, r.value.numLocs)
    ensures r.Ok? ==> r.value.next == c.(pos := c.pos + 16)
    ensures !r.Ok? ==> r == Err(IO(UnexpectedEof))
  {
    var id :- ReadUInt(c, 8);
    var offset :- ReadUInt(id.next, 4);
    match Skip(offset.next, 2)
    case Err(e) => Err(e)
    case Abort(p) => Abort(p)
    case Ok(flags) =>
      var numLocs :- ReadUInt(flags, 2);
      Ok(RecordHead(id.value, offset.value, numLocs.value, numLocs.next))
  }

  /** Where a record whose location table ends at q ends: at the 8-byte
      boundary after the live-out table, which starts 4 bytes past the
      boundary after q and has as many 4-byte entries as the count stored
      2 bytes past that boundary says. */
  predicate LiveOutsEndAt(data: seq<Byte>, q: nat, e: nat)
  {
    var a := RoundUp8(q);
    && a + 4 <= |data|
    && e == RoundUp8(a + 4 + 4 * LE(data[a + 2..a + 4]))
  }

  /** Steps over the part of a record after its location table: align to
      8, skip 2 bytes of padding, read the live-out count, skip the
      live-outs (4 bytes each, Format.SizeLiveOutEntry), align to 8. Ends
      on the 8-byte boundary after the live-outs, whether or not the
      live-outs lie inside the data. */
  function SkipLiveOuts(c: Cursor): (r: Res<Cursor>)
    ensures r.Ok? <==> RoundUp8(c.pos) + 4 <= |c.data|
    ensures r.Ok? ==> r.value.data == c.data && Aligned8(r.value.pos)
    ensures r.Ok? ==> LiveOutsEndAt(c.data, c.pos, r.value.pos)
    ensures !r.Ok? ==> r.Err?
    ensures !r.Ok? && RoundUp8(c.pos) < 0x1_0000_0000_0000_0000 ==> r.error == IO(UnexpectedEof)
  {
    var aligned :- Align8(c);
    match Skip(aligned, 2)
    case Err(e) => Err(e)
    case Abort(p) => Abort(p)
    case Ok(padded) =>
      var numLiveOuts :- ReadUInt(padded, 2);
      match Skip(numLiveOuts.next, 4 * numLiveOuts.value)
      case Err(e) => Err(e)
      case Abort(p) => Abort(p)
      case Ok(skipped) => Align8(skipped)
  }

  /** Steps over the location table of numLocs entries, 12 bytes each
      (Format.SizeLocEntry, written as a literal so that the byte counts
      stay linear arithmetic), and then over the rest of the record. */
  function SkipTables(c: Cursor, numLocs: U16): (r: Res<Cursor>)
    ensures c.pos <= |c.data| && r.Ok? ==> r.value.data == c.data && Aligned8(r.value.pos)
    ensures c.pos <= |c.data| && r.Ok? ==>
      LiveOutsEndAt(c.data, c.pos + 12 * numLocs, r.value.pos)
    ensures c.pos <= |c.data| && !r.Ok? ==> r == Err(IO(UnexpectedEof))
    ensures c.pos + 12 * numLocs < 0x1_0000_0000_0000_0000 ==>
      (r.Ok? <==> RoundUp8(c.pos + 12 * numLocs) + 4 <= |c.data|)
  {
    match Skip(c, 12 * numLocs)
    case Err(e) => Err(e)
    case Abort(p) => Abort(p)
    case Ok(afterLocs) => SkipLiveOuts(afterLocs)
  }

  /** The variable-length part of a record whose location table starts
      at q: numLocs locations, read from the section elf, and then the
      live-out table, after which the record ends at the 8-byte boundary
      end. */
  predicate TablesAt(data: seq<Byte>, elf: Option<Section>, q: nat, numLocs: U16, locs: seq<SMLoc>, end: nat)
  {
    && |locs| == numLocs
    && AllOffsetsMatchKinds(locs)
    && (numLocs > 0 ==> elf.Some? && At(elf.value, q, EncodeLocs(locs)))
    && Aligned8(end)
    && LiveOutsEndAt(data, q + 12 * numLocs, end)
  }

  /** The numLocs locations of a table starting at q, collected through a
      location iterator of their own that opens the section elf at q. */
  function RecordLocs(elf: Option<Section>, q: U64, numLocs: U16): (r: Res<seq<SMLoc>>)
    ensures !r.Err?
    ensures r.Ok? ==> |r.value| == numLocs && AllOffsetsMatchKinds(r.value)
    ensures r.Ok? && numLocs > 0 ==> elf.Some? && At(elf.value, q, EncodeLocs(r.value))
  {
    CollectLocs(LocIter(elf, None, q, numLocs))
  }

  /** Decodes the rest of a record once its head is read: the location
      table through a location iterator of its own, over the same section
      and from the same position, and then the skip over both tables. */
  function ReadRecordBody(elf: Option<Section>, head: RecordHead): (r: Res<(SMRec, Cursor)>)
    ensures r.Ok? ==> r.value.0 == SMRec(head.id, head.offset, head.numLocs, r.value.0.locs)
    ensures head.next.pos <= |head.next.data| && r.Ok? ==>
      && r.value.1.data == head.next.data
      && TablesAt(head.next.data, elf, head.next.pos, head.numLocs, r.value.0.locs, r.value.1.pos)
    ensures head.next.pos <= |head.next.data| && r.Err? ==> r.error == IO(UnexpectedEof)
    ensures RecordLocs(elf, head.next.pos, head.numLocs).Abort? ==>
      r == Abort(RecordLocs(elf, head.next.pos, head.numLocs).panic)
    ensures r.Abort? ==> RecordLocs(elf, head.next.pos, head.numLocs).Abort?
  {
    match RecordLocs(elf, head.next.pos, head.numLocs)
    case Abort(p) => Abort(p)
    case Ok(locs) =>
      match SkipTables(head.next, head.numLocs)
      case Err(e) => Err(e)
      case Abort(p) => Abort(p)
      case Ok(end) => Ok((SMRec(head.id, head.offset, head.numLocs, locs), end))
  }

  /** The layout of a stackmap record as the format describes it: the
      record rec starts at p in data, its location table (read from the
      section elf) follows the 16-byte head, and the record ends at end,
      the 8-byte boundary after its live-out table. */
  predicate RecordAt(data: seq<Byte>, elf: Option<Section>, p: nat, rec: SMRec, end: nat)
  {
    && HeadAt(data, p, rec.id, rec.offset, rec.numLocs)
    && TablesAt(data, elf, p + 16, rec.numLocs, rec.locs, end)
  }

  /** Decodes one record at the cursor. A record fails only by running out
      of bytes; a bad location panics. */
  function ReadRecord(elf: Option<Section>, c: Cursor): (r: Res<(SMRec, Cursor)>)
    ensures r.Ok? ==> r.value.1.data == c.data
    ensures r.Ok? ==> RecordAt(c.data, elf, c.pos, r.value.0, r.value.1.pos)
    ensures r.Err? ==> r.error == IO(UnexpectedEof)
  {
    var head :- ReadRecordHead(c);
    ReadRecordBody(elf, head)
  }

  /** A record decode panics exactly when collecting its locations does,
      with the same panic: the location table's `expect` is never turned
      into a recoverable error. */
  lemma {:induction false} ReadRecordPanics(elf: Option<Section>, c: Cursor)
    ensures ReadRecordHead(c).Ok? && RecordLocs(elf, c.pos + 16, ReadRecordHead(c).value.numLocs).Abort? ==>
      ReadRecord(elf, c) == Abort(RecordLocs(elf, c.pos + 16, ReadRecordHead(c).value.numLocs).panic)
    ensures ReadRecord(elf, c).Abort? ==>
      ReadRecordHead(c).Ok? && RecordLocs(elf, c.pos + 16, ReadRecordHead(c).value.numLocs).Abort?
  {
  }

  /** Reading a record head where one is laid out gives back its fields. */
  lemma {:induction false} HeadRead(c: Cursor, id: U64, offset: U32, numLocs: U16)
    requires HeadAt(c.data, c.pos, id, offset, numLocs)
    ensures ReadRecordHead(c) == Ok(RecordHead(id, offset, numLocs, c.(pos := c.pos + 16)))
  {
    var h := ReadRecordHead(c).value;
    AtUnique(c.data, c.pos, h.id, id, 8);
    AtUnique(c.data, c.pos + 8, h.offset, offset, 4);
    AtUnique(c.data, c.pos + 14, h.numLocs, numLocs, 2);
  }

  /** Skipping the tables from the start of a location table succeeds
      when the live-out count lies inside the data, ends at the one
      position the live-out count allows, and stays in the same data. */
  lemma {:induction false} SkipTablesEnd(c: Cursor, numLocs: U16, end: nat)
    requires c.pos <= |c.data|
    requires LiveOutsEndAt(c.data, c.pos + 12 * numLocs, end)
    ensures end < 0x1_0000_0000_0000_0000
    ensures SkipTables(c, numLocs) == Ok(c.(pos := end))
  {
    SkipTablesOk(c, numLocs, end);
    SkipTablesData(c, numLocs);
    SkipTablesPos(c, numLocs, end);
  }

  lemma {:induction false} SkipTablesOk(c: Cursor, numLocs: U16, end: nat)
    requires c.pos <= |c.data|
    requires LiveOutsEndAt(c.data, c.pos + 12 * numLocs, end)
    ensures SkipTables(c, numLocs).Ok?
  {
  }

  lemma {:induction false} SkipTablesData(c: Cursor, numLocs: U16)
    requires c.pos <= |c.data|
    requires SkipTables(c, numLocs).Ok?
    ensures SkipTables(c, numLocs).value.data == c.data
  {
  }

  lemma {:induction false} SkipTablesPos(c: Cursor, numLocs: U16, end: nat)
    requires c.pos <= |c.data|
    requires LiveOutsEndAt(c.data, c.pos + 12 * numLocs, end)
    requires SkipTables(c, numLocs).Ok?
    ensures SkipTables(c, numLocs).value.pos == end
  {
  }

  /** The converse of what ReadRecord promises: a record laid out in the
      section, with its location table in the same section, is decoded,
      and the cursor moves to its end. */
  lemma {:induction false} ReadRecordAt(c: Cursor, rec: SMRec, end: nat)
    requires RecordAt(c.data, Some(c.data), c.pos, rec, end)
    ensures end < 0x1_0000_0000_0000_0000
    ensures ReadRecord(Some(c.data), c) == Ok((rec, c.(pos := end)))
  {
    var head := RecordHead(rec.id, rec.offset, rec.numLocs, c.(pos := c.pos + 16));
    TablesRead(c.data, head, rec.locs, end);
    HeadRead(c, rec.id, rec.offset, rec.numLocs);
  }

  /** The converse of what ReadRecordBody promises: tables laid out after
      the head, in the same section, are decoded, and the cursor moves to
      the end of the record. */
  lemma {:induction false} TablesRead(d: Section, head: RecordHead, locs: seq<SMLoc>, end: nat)
    requires head.next.data == d && head.next.pos <= |d|
    requires TablesAt(d, Some(d), head.next.pos, head.numLocs, locs, end)
    ensures end < 0x1_0000_0000_0000_0000
    ensures ReadRecordBody(Some(d), head) ==
      Ok((SMRec(head.id, head.offset, head.numLocs, locs), head.next.(pos := end)))
  {
    SkipTablesEnd(head.next, head.numLocs, end);
    CollectLocsEncoded(LocIter(Some(d), None, head.next.pos, head.numLocs), head.next, locs);
  }

  /** The iterator over the stackmap records. It makes its cursor over the
      section, at start, the first time it is advanced. */
  datatype RecIter = RecIter(elf: Option<Section>, cursor: Option<Cursor>, start: U64, remaining: U32)

  /** One call of the record iterator's `next`. With no records left it
      returns nothing without looking at the section; otherwise it decodes
      one record and counts it only if the decode succeeds. */
  function RecNext(it: RecIter): (s: Step<SMRec, RecIter>)
    ensures s.Exhausted? <==> it.remaining == 0
    ensures s.Yielded? ==>
      var c := Open(it.elf, it.cursor, it.start);
      && c.Ok?
      && s.next.cursor.Some?
      && s.next == it.(cursor := s.next.cursor, remaining := it.remaining - 1)
      && ReadRecord(it.elf, c.value) == Ok((s.item, s.next.cursor.value))
      && Aligned8(s.next.cursor.value.pos)
    ensures s.Failed? ==>
      s.error == IO(UnexpectedEof) || (it.cursor.None? && s.error == Other(SectionMissing))
  {
    if it.remaining == 0 then Exhausted
    else StepOf(RecAdvance(it))
  }

  function RecAdvance(it: RecIter): Res<(SMRec, RecIter)>
    requires it.remaining > 0
  {
    var c :- Open(it.elf, it.cursor, it.start);
    var r :- ReadRecord(it.elf, c);
    Ok((r.0, it.(cursor := Some(r.1), remaining := it.remaining - 1)))
  }

  /** One step of the record iterator over a record that lies in its
      section: it yields that record and moves past it. */
  lemma {:induction false} RecNextAt(it: RecIter, d: Section, q: U64, rec: SMRec, end: nat)
    requires it.remaining > 0
    requires it.elf == Some(d)
    requires Open(it.elf, it.cursor, it.start) == Ok(Cursor(d, q))
    requires RecordAt(d, Some(d), q, rec, end)
    ensures end < 0x1_0000_0000_0000_0000
    ensures RecNext(it) == Yielded(rec, it.(cursor := Some(Cursor(d, end)), remaining := it.remaining - 1))
  {
    ReadRecordAt(Cursor(d, q), rec, end);
  }

  /** The record iterator panics exactly when decoding the record at its
      cursor panics, which only a location of the record's table can make
      happen: the panic is passed on, never turned into an error. */
  lemma {:induction false} RecNextPanics(it: RecIter)
    ensures it.remaining > 0 && Open(it.elf, it.cursor, it.start).Ok? ==>
      (RecNext(it).Aborted? <==> ReadRecord(it.elf, Open(it.elf, it.cursor, it.start).value).Abort?)
    ensures RecNext(it).Aborted? ==>
      && Open(it.elf, it.cursor, it.start).Ok?
      && ReadRecord(it.elf, Open(it.elf, it.cursor, it.start).value).Abort?
      && RecNext(it).panic == ReadRecord(it.elf, Open(it.elf, it.cursor, it.start).value).panic
  {
  }

  /** A caller's loop over the record iterator, stopping at the first
      error. It ends normally exactly when it has collected as many
      records as the iterator had left. */
  function RunRecs(it: RecIter): (r: Run<SMRec, RecIter>)
    decreases it.remaining
    ensures r.end.Finished? <==> |r.items| == it.remaining
    ensures |r.items| <= it.remaining
    ensures r.end.Finished? ==> RecNext(r.last) == Exhausted
  {
    match RecNext(it)
    case Exhausted => Run([], Finished, it)
    case Yielded(rec, next) =>
      var rest := RunRecs(next);
      Run([rec] + rest.items, rest.end, rest.last)
    case Failed(e) => Run([], Stopped(e), it)
    case Aborted(p) => Run([], Panicked(p), it)
  }

  lemma {:induction false} RunRecsStep(it: RecIter)
    ensures RecNext(it).Exhausted? ==> RunRecs(it) == Run([], Finished, it)
    ensures RecNext(it).Yielded? ==>
      var rest := RunRecs(RecNext(it).next);
      RunRecs(it) == Run([RecNext(it).item] + rest.items, rest.end, rest.last)
  {
  }
}

=== FILE: roundtrip.dfy ===
/** Decoding an encoded section: the parser accepts it with the table
    sizes it was written with, the function iterator gives back every
    function and the record iterator every record, both ending normally,
    and the last record ends where the section does. */
module RoundTrip {
  import opened Bytes
  import opened Errors
  import opened Cursors
  import opened Functions
  import opened Records
  import opened Parser
  import opened Encoding

  /** The parser a well-formed section should give: the section and the
      three table sizes. */
  function ParserOf(d: Section, sm: StackMap): (p: StackMapParser)
    requires |sm.funcs| < 0x1_0000_0000 && |sm.consts| < 0x1_0000_0000 && |sm.records| < 0x1_0000_0000
    ensures p.elf == Some(d)
  {
    StackMapParser(Some(d), |sm.funcs|, |sm.consts|, |sm.records|)
  }

  /** Where the record table of a section with these table sizes starts. */
  function RecordsStart(sm: StackMap): nat
  {
    16 + 24 * |sm.funcs| + 8 * |sm.consts|
  }

  /** The record table starts at an 8-byte boundary, where the record
      iterator starts. */
  lemma {:induction false} RecordsStartAt(d: Section, sm: StackMap)
    requires |sm.funcs| < 0x1_0000_0000 && |sm.consts| < 0x1_0000_0000 && |sm.records| < 0x1_0000_0000
    ensures Aligned8(RecordsStart(sm))
    ensures IterStackmaps(ParserOf(d, sm)).start == RecordsStart(sm)
  {
    assert RecordsStart(sm) == 8 * (2 + 3 * |sm.funcs| + |sm.consts|);
  }

  lemma {:induction false} WholeAt(d: seq<Byte>)
    ensures At(d, 0, d)
  {
    assert d[0..|d|] == d;
  }

  /** The four parts of an encoded section lie one after the other: the
      header, the function table at byte 16, the constant table and the
      record table, which runs to the end of the section. */
  lemma {:induction false} SectionHead(sm: StackMap)
    requires WellFormed(sm)
    ensures At(EncodeSection(sm), 0, EncodeHead(sm))
  {
    var d := EncodeSection(sm);
    WholeAt(d);
    AtParts4(d, 0, EncodeHead(sm), EncodeFuncs(sm.funcs), EncodeConsts(sm.consts), EncodeRecords(sm.records));
  }

  lemma {:induction false} SectionFuncs(sm: StackMap)
    requires WellFormed(sm)
    ensures At(EncodeSection(sm), 16, EncodeFuncs(sm.funcs))
  {
    var d := EncodeSection(sm);
    WholeAt(d);
    AtParts4(d, 0, EncodeHead(sm), EncodeFuncs(sm.funcs), EncodeConsts(sm.consts), EncodeRecords(sm.records));
  }

  lemma {:induction false} SectionRecords(sm: StackMap)
    requires WellFormed(sm)
    ensures At(EncodeSection(sm), RecordsStart(sm), EncodeRecords(sm.records))
    ensures |EncodeSection(sm)| == RecordsStart(sm) + |EncodeRecords(sm.records)|
  {
    var d := EncodeSection(sm);
    var head, funcs, consts, records := EncodeHead(sm), EncodeFuncs(sm.funcs), EncodeConsts(sm.consts), EncodeRecords(sm.records);
    assert d == head + funcs + consts + records;
    assert |head| + |funcs| + |consts| == RecordsStart(sm);
    WholeAt(d);
    AtParts4(d, 0, head, funcs, consts, records);
  }

  /** The header and the three table sizes of an encoded section. */
  lemma {:induction false} HeadParts(d: seq<Byte>, sm: StackMap)
    requires |sm.funcs| < 0x1_0000_0000 && |sm.consts| < 0x1_0000_0000 && |sm.records| < 0x1_0000_0000
    requires At(d, 0, EncodeHead(sm))
    ensures At(d, 0, Header)
    ensures At(d, 4, ToLE(|sm.funcs|, 4))
    ensures At(d, 8, ToLE(|sm.consts|, 4))
    ensures At(d, 12, ToLE(|sm.records|, 4))
    ensures 16 <= |d|
  {
    AtParts4(d, 0, Header, ToLE(|sm.funcs|, 4), ToLE(|sm.consts|, 4), ToLE(|sm.records|, 4));
  }

  /** The parser accepts an encoded section and reads back its table
      sizes. */
  lemma {:induction false} NewEncoded(sm: StackMap, d: Section)
    requires WellFormed(sm) && d == EncodeSection(sm)
    ensures New(Some(d)) == Ok(ParserOf(d, sm))
  {
    SectionHead(sm);
    HeadParts(d, sm);
    var p := New(Some(d)).value;
    AtUnique(d, 4, p.numFuncs, |sm.funcs|, 4);
    AtUnique(d, 8, p.numConsts, |sm.consts|, 4);
    AtUnique(d, 12, p.numStackmaps, |sm.records|, 4);
  }

  /** The function iterator gives back every function of an encoded
      section, in order, and ends normally. */
  lemma {:induction false} FunctionsEncoded(sm: StackMap, d: Section)
    requires WellFormed(sm) && d == EncodeSection(sm)
    ensures RunFuncs(IterFunctions(ParserOf(d, sm))).items == DecodedFuncs(sm.funcs)
    ensures RunFuncs(IterFunctions(ParserOf(d, sm))).end == Finished
  {
    SectionFuncs(sm);
    RunFuncsEncoded(IterFunctions(ParserOf(d, sm)), d, 16, sm.funcs);
  }

  /** The record iterator gives back every record of an encoded section,
      in order, ends normally, and leaves its cursor at the end of the
      section. */
  lemma {:induction false} RecordsEncoded(sm: StackMap, d: Section)
    requires WellFormed(sm) && d == EncodeSection(sm)
    ensures RunRecs(IterStackmaps(ParserOf(d, sm))).items == DecodedRecords(sm.records)
    ensures RunRecs(IterStackmaps(ParserOf(d, sm))).end == Finished
    ensures |sm.records| > 0 ==> RunRecs(IterStackmaps(ParserOf(d, sm))).last.cursor.Some?
    ensures |sm.records| > 0 ==> RunRecs(IterStackmaps(ParserOf(d, sm))).last.cursor.value.data == d
    ensures |sm.records| > 0 ==> RunRecs(IterStackmaps(ParserOf(d, sm))).last.cursor.value.pos == |d|
  {
    SectionRecords(sm);
    RecordsStartAt(d, sm);
    RunRecsEncoded(IterStackmaps(ParserOf(d, sm)), d, RecordsStart(sm), sm.records);
  }

  /** Decoding what the encoder writes gives back the functions and the
      records it was given, and the records end where the section ends. */
  lemma {:induction false} DecodeEncoded(sm: StackMap)
    requires WellFormed(sm)
    ensures var d := EncodeSection(sm);
      && New(Some(d)).Ok?
      && RunFuncs(IterFunctions(New(Some(d)).value)).items == DecodedFuncs(sm.funcs)
      && RunFuncs(IterFunctions(New(Some(d)).value)).end == Finished
      && RunRecs(IterStackmaps(New(Some(d)).value)).items == DecodedRecords(sm.records)
      && RunRecs(IterStackmaps(New(Some(d)).value)).end == Finished
  {
    var d: Section := EncodeSection(sm);
    NewEncoded(sm, d);
    FunctionsEncoded(sm, d);
    RecordsEncoded(sm, d);
  }
}
